=== FILE: README.md ===
# mountain-app: forecast grading and mountain-registry matching

This project is a Dafny model of the two pieces of pure logic in mountain-app,
a browser app that rates mountain weather and lists Japanese mountains.

- **Weather grading** (`weather.js`). An hourly Open-Meteo series is turned
  into a grid of 4 days × 6 fixed times of day (06:00 to 16:00). Each cell
  is the grade "A", "B" or "C", or null when the hour is missing or its
  precipitation is missing or non-finite. A parallel grid holds the picked
  sample, which is recorded in that case too. Precipitation decides first.
  When it is light, penalty points for wind, gusts and cold are counted
  against a reference. That reference depends on the season, on whether the summit is
  at least 2500 m, and on the difficulty level.
- **Mountain lists and registry** (`mountaimSets.js`).
  - Link texts from the 200-mountain navbox become a clean, duplicate-free
    list of names.
  - The GSI 1003-mountain CSV becomes a map from normalised name to one
    row of that name: the earliest of the highest rows, except that a first
    row whose elevation is NaN is kept even over later, higher rows.
  - Every name of the flower-100 and 200-extra lists is looked up through
    kana spelling variants and one alias. Each name becomes either a
    generated mountain or a miss, and the statistics report the counts.

The JavaScript semantics mountain-app relies on are written out explicitly:

- `Number(null)` is 0. NaN is `None`.
- Comparisons with NaN are false.
- `\s` and `trim` use the full ECMAScript whitespace set.
- `split(/\r?\n/)` is modelled exactly.
- `slice` clamps its indices.
- `String(undefined)` is `"undefined"`.

Numbers are `real`. A value that is null or non-finite in JavaScript is
`Option.None`.

Modules:

- `Optional`: the option type.
- `JsText`: string built-ins.
- `JsNumber`: `Number(string)`.
- `Weather`, `WeatherProps`: weather.js.
- `NameNorm`: `normName`.
- `Csv`: `parseCsv`.
- `GsiRegistry`: `buildGsiMap` and `tryLookup`.
- `AnchorList`: the list stage of `parseNihon200Extra`.
- `MountainsExtra`: the partition in `buildMountainsExtraViaGSI`.

## Model

| member | source | states |
|---|---|---|
| Weather.ToNumber | weather.js:17-20 | A JSON null becomes 0, because `Number(null)` is 0. Only a missing or non-finite entry becomes null. A finite number passes unchanged. |
| Weather.PickAtHour | weather.js:86-103 | Null exactly when `time` is not an array or no timestamp equals the wanted one exactly; there is no nearest-hour fallback. Otherwise all four fields are read, through `toNumber`, at the first matching index. A series that is missing or too short gives null for its field. |
| Weather.HourIsoInjective | weather.js:105-108 | For date keys of one length, equal timestamps mean the same date and the same slot, so distinct grid cells read distinct hours. |
| Weather.MonthOfDigits | weather.js:138 | When characters 5 and 6 of the date key are digits, the month read from them is their two-digit value. |
| Weather.BaselineBySeason | weather.js:113-128 | The temperature reference is one of -12, -6, 2 and 8. It is negative iff the month is 12, 1 or 2. It is -12 or 2 iff the summit is at least 2500 m, a null elevation counting as 0. The wind reference is 12 for a high summit and 9 otherwise, and the gust reference 18 or 14; 上級 adds 1 and 2 to them. |
| Weather.AdvancedBaseline | weather.js:122-125 | Compared with any other level, 上級 raises the wind reference by 1 and the gust reference by 2, and leaves the temperature reference unchanged. |
| Weather.Penalty | weather.js:141-144 | At most 3 points. At least 2 iff at least two of these hold: wind ≥ reference+4, gust ≥ reference+6, temperature ≤ reference−8. Three null factors give 0. |
| Weather.ScoreFromRule | weather.js:130-148 | Null iff precipitation is null. "C" iff precipitation ≥ 1.0. "B" when 0.3 ≤ precipitation < 1.0. Below 0.3, "B" iff two penalty conditions hold against the reference for the level, the elevation and the month in the date key; otherwise "A". |
| Weather.DayRows | weather.js:176-189 | The grade row of one date has exactly the six time slots, each null when the hour is missing and otherwise the score of the picked sample. The detail row holds exactly the slots whose hour was found, each with the picked sample. |
| Weather.GenerateWeatherScore | weather.js:165-192 | The grade grid has exactly the given date keys, and each row has exactly the six time slots. Every cell is null when the hour is missing and the score of the picked sample otherwise. The detail grid has the same date keys and holds exactly the slots whose hour was found, each with the picked sample. |
| WeatherProps.AllNullIsA | weather.js:141-147 | With precipitation under 0.3 and wind, gust and temperature all null, the grade is "A". |
| WeatherProps.PrecipMonotone | weather.js:132-147 | More precipitation never improves the grade (A < B < C), all else fixed. |
| WeatherProps.WindMonotone | weather.js:141-147 | Stronger wind never improves the grade; a null wind counts as the weakest. |
| WeatherProps.GustMonotone | weather.js:141-147 | Stronger gusts never improve the grade; a null gust counts as the weakest. |
| WeatherProps.TempMonotone | weather.js:141-147 | A lower temperature never improves the grade; a null temperature counts as the mildest. |
| WeatherProps.AdvancedNeverWorse | weather.js:113-147 | The 上級 level never grades an hour worse than any other level. |
| JsText.IndexOf | weather.js:89 | -1 iff the element is absent. Otherwise the result holds the element and no earlier position does. |
| JsText.IndexOfUnique | weather.js:89 | The first occurrence is the only position with the element and no earlier copy. |
| JsText.RemoveSpaces | mountaimSets.js:10 | No whitespace is left; every character left comes from the input; a whitespace-free text is unchanged. |
| JsText.RemoveSpacesAppend | mountaimSets.js:10 | The removal works piece by piece: on `a + b` it gives its result on `a` followed by its result on `b`, so every non-whitespace character is kept, in order. |
| JsText.RemoveSpacesChar | mountaimSets.js:10 | A single character is dropped iff it is whitespace. |
| JsText.RemoveChar | mountaimSets.js:11 | The character is gone; every character left comes from the input; a text without it is unchanged. |
| JsText.RemoveCharAppend | mountaimSets.js:11 | The removal works piece by piece: on `a + b` it gives its result on `a` followed by its result on `b`, so every other character is kept, in order. |
| JsText.RemoveCharChar | mountaimSets.js:11 | A single character is dropped iff it is the removed one. |
| JsText.ReplaceChar | mountaimSets.js:136-139 | Same length. Every occurrence of the replaced character becomes the replacement, so none is left, and every other character is unchanged. |
| JsText.Trim | mountaimSets.js:15 | The result sits inside the input with only whitespace around it. It neither starts nor ends with whitespace. A whitespace-free text is unchanged. |
| JsText.Slice | weather.js:138 | Within bounds, the subsequence between the indices; never longer than the input. |
| JsText.Split | mountaimSets.js:105 | At least one piece, and no piece contains the separator. |
| JsText.JoinSplit | mountaimSets.js:105 | Joining the pieces with the separator gives back the text. |
| JsText.SplitJoin | mountaimSets.js:105 | Splitting pieces that were joined, none of which contains the separator, gives back the pieces. |
| JsNumber.DecimalValue | mountaimSets.js:120 | Only a non-empty text of digits and points can be a number. A digit string has its decimal value. The value is never negative. |
| JsNumber.DecimalOnePoint | mountaimSets.js:120 | A text that is a number has at most one decimal point. |
| JsNumber.DecimalOfParts | mountaimSets.js:120 | `w.f` with digit strings `w` and `f`, not both empty, is a number: the value of `w` plus the value of `f` over 10 to the length of `f`. |
| JsNumber.DecimalTrailingZero | mountaimSets.js:120 | A zero appended after the point does not change the value. |
| JsNumber.DecimalBarePoint | mountaimSets.js:120 | A point after a non-empty digit string, with nothing after it, reads as the digits alone. |
| JsNumber.ParseNumber | mountaimSets.js:120-122 | An empty or whitespace-only text is 0. A digit string, after trimming, has its decimal value. A negative result needs a leading '-'. |
| JsNumber.ParseNumberMinusSign | mountaimSets.js:121-122 | A leading '-' in front of an unsigned, whitespace-free text negates its value, and NaN stays NaN. |
| JsNumber.ParseNumberPlusSign | mountaimSets.js:121-122 | A leading '+' in front of an unsigned, whitespace-free text keeps its value. |
| JsNumber.DigitsValueOfNatToString | mountaimSets.js:120 | Reading the decimal digits of a natural number gives the number back. |
| JsNumber.ParseNumberOfNatToString | mountaimSets.js:120 | `Number(String(n))` is `n` for every natural number. |
| NameNorm.StripGroup | mountaimSets.js:12-14 | After the lazy removal of bracket groups, no opening bracket is followed anywhere later by its closing bracket. The result is no longer than the input and uses only its characters. |
| NameNorm.StripGroupIdentity | mountaimSets.js:12-14 | A text without such a bracket pair is unchanged. |
| NameNorm.StripGroupKeepsNoPair | mountaimSets.js:12-14 | Removing one kind of bracket group keeps the text free of the other kinds. |
| NameNorm.StripGroupPrefix | mountaimSets.js:12-14 | A text without the opening bracket passes unchanged in front of whatever follows it. |
| NameNorm.StripGroupDrop | mountaimSets.js:12-14 | An opening bracket, a text without the closing bracket, and the closing bracket are removed together, lazily up to the first closing bracket. |
| NameNorm.StripGroupsPrefix | mountaimSets.js:12-14 | A whitespace-free text without （, ＜ or ［ passes the three removals unchanged in front of whatever follows it. |
| NameNorm.StripGroupsDrop | mountaimSets.js:12 | A leading （…） group, up to its first ）, is removed by the three removals. |
| NameNorm.UnspacedPrefix | mountaimSets.js:10-11 | The whitespace and U+3000 removals leave a whitespace-free prefix in place. |
| NameNorm.NormName | mountaimSets.js:8-16 | The result has no whitespace and no U+3000. No （, ＜ or ［ is followed later by its closing bracket. It is no longer than the input. |
| NameNorm.NormNameFixedPoint | mountaimSets.js:8-16 | A name is unchanged by `normName` iff it is whitespace-free and has no bracket group. |
| NameNorm.NormNameIdempotent | mountaimSets.js:8-16 | `normName(normName(s)) == normName(s)`. |
| NameNorm.NormNameDropsGroup | mountaimSets.js:8-16 | A clean leading name is kept and a （…） annotation right after it is dropped, with the rest normalised on its own: `normName("富士山（静岡）")` is 富士山. |
| Csv.SplitLines | mountaimSets.js:101 | One line per line-feed-separated piece, none containing a line feed. |
| Csv.SplitLinesPieces | mountaimSets.js:101 | Each line-feed-separated piece but the last is its line followed by exactly one carriage return, or is the line itself when that does not end in one. The last piece is the last line unchanged. |
| Csv.SplitLinesCrlf | mountaimSets.js:101 | Splitting a text written with "\r\n" line endings gives back its lines, whatever they contain besides line feeds. |
| Csv.RowOfKeys | mountaimSets.js:106-109 | The keys of a record are exactly the header names. |
| Csv.RowOfField | mountaimSets.js:107-109 | A header name maps to the field at the position of its last occurrence (a later duplicate column overwrites an earlier one), or to undefined past the end of the line. |
| Csv.ParseLines | mountaimSets.js:102-112 | One row per line after the first. Every row has exactly the header names as keys, and row i holds the comma fields of line i+1. |
| Csv.ParseCsv | mountaimSets.js:100-113 | The row count is the number of lines of the trimmed text minus one. Row i maps every header name to the matching comma field of line i+1: a missing trailing field is undefined and extra fields are dropped. |
| GsiRegistry.KeepNumeric | mountaimSets.js:120 | Only digits and points are left. A text made only of them is unchanged, and a text with none of them becomes empty. |
| GsiRegistry.KeepNumericAppend | mountaimSets.js:120 | The filter works piece by piece: on `a + b` it gives its result on `a` followed by its result on `b`. |
| GsiRegistry.RowElev | mountaimSets.js:120 | The elevation is the number read from the digits and points of the elevation text: 0 when none are left, which includes a missing column ("undefined"), and otherwise the unsigned decimal literal, NaN when it is not one. It is never negative. |
| GsiRegistry.NumericValue | mountaimSets.js:120 | `Number` of a text of digits and points is 0 when it is empty and its unsigned literal value otherwise; no sign or whitespace can survive the filter. |
| GsiRegistry.ElevationOfDigits | mountaimSets.js:120 | An elevation written as digits followed by text without digits or points, such as a unit, reads as the value of the digits. |
| GsiRegistry.Candidate | mountaimSets.js:119-123 | A row contributes an entry iff its normalised name is non-empty and both coordinates are finite numbers. That entry has the row's name, elevation and coordinates. |
| GsiRegistry.FoldAt | mountaimSets.js:117-130 | A name is stored iff some entry carries it, and the stored entry is the one at the kept index. |
| GsiRegistry.KeptIndexIsKept | mountaimSets.js:125-128 | There is a kept entry iff the name occurs. It has no earlier entry of its name that is as high and no later one that is higher, so ties keep the earliest row. Its elevation is NaN only when it is the first entry of the name, and a first entry with a NaN elevation is always the kept one: NaN never replaces and is never replaced. |
| GsiRegistry.KeptAmongUnique | mountaimSets.js:125-128 | These conditions single out one entry: two indices that both meet them are equal. |
| GsiRegistry.KeptIsHighest | mountaimSets.js:125-128 | When its own elevation is a number, the kept entry is at least as high as every entry of its name whose elevation is a number. A first entry whose elevation is NaN is kept, even over later higher entries. |
| GsiRegistry.NaNFirstKeptOverHigher | mountaimSets.js:125-128 | When the first entry of a name has a NaN elevation, the loop stores that entry, whatever higher entries of the name follow. |
| GsiRegistry.KeepHighest | mountaimSets.js:117-130 | The keys are exactly the names that occur. Each value is the kept entry of its name. When its own elevation is a number, it is at least as high as every entry of that name whose elevation is a number. A first entry whose elevation is NaN is kept, even over later higher entries. |
| GsiRegistry.BuildGsiMap | mountaimSets.js:115-131 | The keys are exactly the names of accepted rows. Each value is the entry of the one row the strict `>` loop keeps for that name (the conditions of `KeptIndexIsKept`). When its own elevation is a number, it is at least as high as every accepted row of that name whose elevation is a number. A first row whose elevation is NaN is kept, even over later higher rows. |
| GsiRegistry.Variant | mountaimSets.js:134-139 | Variant 0 is the name. Variant k, for k from 1 to 4, has the same length and has the second character of the k-th pair (ヶ→ケ, ケ→ヶ, ノ→の, の→ノ) wherever the name has the first, and the name's character elsewhere. |
| GsiRegistry.Candidates | mountaimSets.js:134-140 | There are five candidates, and candidate k is the normalised variant k. |
| GsiRegistry.CandidatesPlain | mountaimSets.js:134-140 | For a name without ヶ, ケ, ノ or の, every candidate is the normalised name itself. |
| GsiRegistry.FirstHit | mountaimSets.js:142-145 | Some iff a variant is a key. It then holds the entry of the first variant that is a key. |
| GsiRegistry.AliasTargetIsNormal | mountaimSets.js:148-153 | `normName("大菩薩嶺")` is 大菩薩嶺. |
| GsiRegistry.AliasHit | mountaimSets.js:148-155 | The alias step finds something only for the normalised name 大菩薩峠, and then only when 大菩薩嶺 is a key; it returns that key's entry. |
| GsiRegistry.TryLookup | mountaimSets.js:133-157 | Returns the entry of the first variant that is a key, trying the name, ヶ→ケ, ケ→ヶ, ノ→の and の→ノ in that order. Only when all five miss does it try the 大菩薩峠→大菩薩嶺 alias. It is null only when the alias misses too. |
| AnchorList.Normalized | mountaimSets.js:55 | Each link text is normalised, in order. |
| AnchorList.FilterAnchors | mountaimSets.js:54-66 | The loop as written, including its `break`, keeps only admissible names. A name is admissible when it is non-empty, not in the skip set, does not end in の山, 山地, 丘陵, 山脈, 連峰 or 火山地, and does not start with "Template:". |
| AnchorList.FilterNeverStops | mountaimSets.js:50-63 | The `break` on 日本百名山 is dead code because that name is in the skip set: the loop is exactly the plain filter. |
| AnchorList.AdmittedAppend | mountaimSets.js:54-66 | Filtering a concatenation filters each part, so no text cuts off the texts after it. |
| AnchorList.AdmittedMembers | mountaimSets.js:54-66 | A name is kept iff it is admissible and occurs among the normalised texts. |
| AnchorList.Dedupe | mountaimSets.js:68-75 | No duplicates. The same members as the input. The order of first occurrence. |
| AnchorList.ParseNihon200Extra | mountaimSets.js:50-77 | Only admissible names, each exactly once, in first-admission order. A name is in the list iff it is admissible and is the normalisation of some link text. |
| MountainsExtra.MakeId | mountaimSets.js:159-162 | The id starts with the prefix and "_". Its length is the prefix length plus one plus the encoded length. It is the encoded name with every `%` turned into `_`, so it has no `%` when the prefix has none. |
| MountainsExtra.IdsOfListsDiffer | mountaimSets.js:181-202 | An id of the flower-100 list never equals an id of the 200-extra list. |
| MountainsExtra.Found | mountaimSets.js:174-190 | At most one entry per list position. Every entry carries a name the lookup finds, and is built from that hit: the prefixed id, the name, the hit's coordinates and elevation, level 中級 and the list tag. |
| MountainsExtra.Missed | mountaimSets.js:174-179 | At most one miss per list position, and every miss is a name the lookup does not find. |
| MountainsExtra.Partition | mountaimSets.js:174-190 | Every name ends up exactly once, either as an entry or as a miss: the counts add up and the multisets of names agree. |
| MountainsExtra.ResolveList | mountaimSets.js:174-190 | One loop yields the found entries and the misses in order, with the hit count equal to the entry count. Hits plus misses equal the number of names. |
| MountainsExtra.AllMissed | mountaimSets.js:174-198 | The misses of both loops, flower-100 first; none of them is found by the lookup. |
| MountainsExtra.Assemble | mountaimSets.js:172-216 | The output is the flower-100 entries followed by the 200-extra entries. The ok counts add up to the output length and the totals are the list lengths. The quoted misses are the first min(20, misses) misses in push order. Every id carries one of the two prefixes and no `%`. |
| MountainsExtra.BuildMountainsExtra | mountaimSets.js:169-216 | The same as `Assemble`, with every lookup being `tryLookup` on the registry map: the output is the found entries of both lists in order, and the quoted misses are the first min(20, misses) misses in push order. Every quoted miss is a name `tryLookup` does not find. |
| MountainsExtra.GsiMapOf | mountaimSets.js:165-167 | The registry map of the CSV text is what `BuildGsiMap` promises for the parsed rows: keys, kept entries, and the bound on elevations, which holds when the kept entry's elevation is a number. |
| MountainsExtra.BuildMountainsExtraViaGsi | mountaimSets.js:164-216 | From the CSV text: the registry map (also returned) is the one `GsiMapOf` promises, and against it the output, counts, totals and quoted misses are exactly those of `BuildMountainsExtra`. Every id is prefixed and free of `%`. |

## Left out

- GsiRegistry.BuildGsiMap does not always keep the highest row of a name, despite the "higher one wins" intent of mountaimSets.js:116. The comparison `elev > prev.elev` at mountaimSets.js:126 is false whenever the stored elevation is NaN, so a first row with a non-numeric elevation stays, even over later higher rows. The model keeps this behaviour (`NaNFirstKeptOverHigher`) rather than correcting it.
- Network, cache and browser code is not modelled, because it is I/O with clocks, timing and randomness:
  - `fetchOpenMeteo` with its retries, `sleep` and random jitter;
  - `loadCache`, `saveCache` and `cacheKey`, which use localStorage, `Date.now` and `toFixed`;
  - `fetchHtml`, `fetchGsi1003Csv` and `fetchSetNamesViaRest`.
- The date keys are a parameter, not computed. `new Date()` and local-calendar arithmetic produce them in weather.js:166-174.
- The decoded Open-Meteo response is a parameter.
  - A `time` entry that is not a string is not modelled.
  - A series entry that is a string or a boolean is not modelled, and neither is JavaScript's coercion of it; only numbers, null, missing and non-finite values are.
- `parseHana100` and the DOM querying in `parseNihon200Extra` need DOMParser and are not modelled. The model starts from the extracted link texts.
- The `jsText` output of `buildMountainsExtraViaGSI` is not modelled: `JSON.stringify` and an ISO timestamp. The model returns the mountain array and the statistics directly.
- `encodeURIComponent` (section 2.1 of RFC 3986) is an arbitrary function parameter of `MakeId`, not a model of percent-encoding.
- JsNumber.ParseNumber treats the exponent, hexadecimal, binary, octal and "Infinity" forms of `Number(string)` as NaN, where JavaScript accepts them. The registry's coordinate and elevation columns are plain decimals.
- JsText.Slice counts code points, where JavaScript's `slice` counts UTF-16 code units. The date keys it is applied to are ASCII, where the two agree.
- Numbers are exact reals. The IEEE-754 rounding of the inputs is not modelled, for example at the 0.3 threshold or for very long digit strings.
- `ALIAS[normName(name)]` on a name such as "constructor" or "__proto__" reads an `Object.prototype` member in JavaScript. The model's alias map has only its one key. Such a name would still miss in mountaimSets.js, because the stringified member is never a registry key.
- A date key equal to "__detail" would collide with the detail grid's property in weather.js:192. The model keeps the two grids apart.
- NameNorm.StripGroup requires text without line breaks, where `.` in the lazy bracket patterns matches every character. `normName` removes all whitespace first, so it only calls StripGroup on such text.
- mountains.js and mountains_extra.js are static data arrays and are not part of this model.

=== FILE: anchor_list.dfy ===
/** The string-list stage of `parseNihon200Extra` in mountaimSets.js: the
    texts of the navbox links, already extracted from the page, become the
    list of the mountains added by the 200-mountain list. */
module AnchorList {
  import opened JsText
  import opened NameNorm

  /** Link texts that are navigation, list or region headings. */
  const SKIP: set<string> := {
    "表", "話", "編", "歴", "日本二百名山", "百名山", "日本百名山", "日本三百名山", "日本の山一覧",
    "北海道", "東北", "関東", "中部山岳", "西日本" }

  /** Endings that mark a range or a region rather than a summit. */
  const CATEGORY_SUFFIXES: seq<string> := ["の山", "山地", "丘陵", "山脈", "連峰", "火山地"]

  const TEMPLATE_PREFIX: string := "Template:"

  /** The link at which the loop breaks off. */
  const STOP_NAME: string := "日本百名山"

  predicate IsCategoryName(t: string) {
    exists k :: 0 <= k < |CATEGORY_SUFFIXES| && EndsWith(t, CATEGORY_SUFFIXES[k])
  }

  /** A normalised link text the loop does not `continue` past. */
  predicate Admissible(t: string) {
    && t != ""
    && t !in SKIP
    && !IsCategoryName(t)
    && !StartsWith(t, TEMPLATE_PREFIX)
  }

  /** Each link text normalised, as the loop does before any test. */
  function Normalized(texts: seq<string>): (ts: seq<string>)
    ensures |ts| == |texts|
    ensures forall i :: 0 <= i < |texts| ==> ts[i] == NormName(texts[i])
  {
    seq(|texts|, i requires 0 <= i < |texts| => NormName(texts[i]))
  }

  /** The anchor loop as written, over the normalised texts: skip the
      inadmissible ones, stop at 日本百名山, keep the rest in order. */
  function FilterAnchors(ts: seq<string>): (names: seq<string>)
    ensures |names| <= |ts|
    ensures forall i :: 0 <= i < |names| ==> Admissible(names[i])
  {
    if |ts| == 0 then []
    else if !Admissible(ts[0]) then FilterAnchors(ts[1..])
    else if ts[0] == STOP_NAME then []
    else [ts[0]] + FilterAnchors(ts[1..])
  }

  /** Reference filter without any early exit: every admissible text, in
      order. */
  function Admitted(ts: seq<string>): seq<string> {
    if |ts| == 0 then []
    else if Admissible(ts[0]) then [ts[0]] + Admitted(ts[1..])
    else Admitted(ts[1..])
  }

  /** The `break` is dead: 日本百名山 is in the skip set, so the text that
      would trigger it is always skipped first, and the loop keeps every
      admissible text. */
  lemma {:induction false} FilterNeverStops(ts: seq<string>)
    ensures FilterAnchors(ts) == Admitted(ts)
    decreases |ts|
  {
    if |ts| > 0 {
      FilterNeverStops(ts[1..]);
      assert STOP_NAME in SKIP;
    }
  }

  /** Filtering a concatenation filters each part: no text cuts off the
      texts after it. */
  lemma {:induction false} AdmittedAppend(a: seq<string>, b: seq<string>)
    ensures Admitted(a + b) == Admitted(a) + Admitted(b)
    decreases |a|
  {
    if |a| > 0 {
      assert (a + b)[0] == a[0];
      assert (a + b)[1..] == a[1..] + b;
      AdmittedAppend(a[1..], b);
    } else {
      assert a + b == b;
    }
  }

  /** A name is kept exactly when it is admissible and occurs. */
  lemma {:induction false} AdmittedMembers(ts: seq<string>, x: string)
    ensures x in Admitted(ts) <==> Admissible(x) && x in ts
    decreases |ts|
  {
    if |ts| > 0 {
      AdmittedMembers(ts[1..], x);
      assert ts == [ts[0]] + ts[1..];
    }
  }

  /** The "unique preserve" loop: drop every repeat of an earlier name. */
  method Dedupe(names: seq<string>) returns (out: seq<string>)
    ensures forall a, b :: 0 <= a < b < |out| ==> out[a] != out[b]
    ensures forall x :: x in out <==> x in names
    ensures forall a, b :: 0 <= a < b < |out| ==> IndexOf(names, out[a]) < IndexOf(names, out[b])
  {
    var seen: set<string> := {};
    out := [];
    var i := 0;
    while i < |names|
      invariant 0 <= i <= |names|
      invariant forall x :: x in seen <==> x in out
      invariant forall x :: x in out <==> x in names[..i]
      invariant forall a :: 0 <= a < |out| ==> 0 <= IndexOf(names, out[a]) < i
      invariant forall a, b :: 0 <= a < b < |out| ==> IndexOf(names, out[a]) < IndexOf(names, out[b])
    {
      var n := names[i];
      if n !in seen {
        IndexOfUnique(names, n, i);
        seen := seen + {n};
        out := out + [n];
      }
      assert names[..i + 1] == names[..i] + [n];
      i := i + 1;
    }
    assert names[..i] == names;
  }

  /** `parseNihon200Extra` after the link texts are extracted: admissible
      names only, each once, in the order of their first admission. */
  method ParseNihon200Extra(texts: seq<string>) returns (names: seq<string>)
    ensures forall i :: 0 <= i < |names| ==> Admissible(names[i])
    ensures forall a, b :: 0 <= a < b < |names| ==> names[a] != names[b]
    ensures forall x :: x in names <==> Admissible(x) && x in Normalized(texts)
    ensures forall a, b :: 0 <= a < b < |names| ==>
      IndexOf(Admitted(Normalized(texts)), names[a]) < IndexOf(Admitted(Normalized(texts)), names[b])
  {
    var ts := Normalized(texts);
    var kept := FilterAnchors(ts);
    names := Dedupe(kept);
    FilterNeverStops(ts);
    forall x ensures x in names <==> Admissible(x) && x in ts {
      AdmittedMembers(ts, x);
    }
  }
}

=== FILE: csv.dfy ===
/** `parseCsv` of mountaimSets.js: a deliberately simple CSV reader that
    splits lines on `\r?\n` and fields on every comma, with none of the
    quoting rules of section 2 of RFC 4180. */
module Csv {
  import opened Optional
  import opened JsText

  /** One parsed record: header name to field; `None` is `undefined`, the
      value of a field the line did not have. */
  type Row = map<string, Option<string>>

  /** Drops one carriage return before the line feed that ended a line. */
  function DropCR(line: string): string {
    if |line| > 0 && line[|line| - 1] == '\r' then line[..|line| - 1] else line
  }

  /** `s.split(/\r?\n/)`: pieces between line feeds, each losing the carriage
      return that was part of its separator; the last piece has none. */
  function SplitLines(s: string): (lines: seq<string>)
    ensures |lines| == |Split(s, '\n')| >= 1
    ensures forall k :: 0 <= k < |lines| ==> '\n' !in lines[k]
  {
    var parts := Split(s, '\n');
    seq(|parts|, k requires 0 <= k < |parts| => if k < |parts| - 1 then DropCR(parts[k]) else parts[k])
  }

  /** Line by line: each piece between line feeds but the last is its line
      followed by exactly one carriage return, or is the line itself when it
      does not end in one; the last piece is the last line unchanged. */
  lemma SplitLinesPieces(s: string)
    ensures var parts := Split(s, '\n'); var lines := SplitLines(s);
      && lines[|lines| - 1] == parts[|parts| - 1]
      && forall k :: 0 <= k < |lines| - 1 ==>
           parts[k] == lines[k] + "\r" || (parts[k] == lines[k] && !EndsWith(lines[k], "\r"))
  {
    var parts := Split(s, '\n');
    var lines := SplitLines(s);
    forall k | 0 <= k < |lines| - 1
      ensures parts[k] == lines[k] + "\r" || (parts[k] == lines[k] && !EndsWith(lines[k], "\r"))
    {
      var p := parts[k];
      if |p| > 0 && p[|p| - 1] == '\r' {
        assert p == p[..|p| - 1] + "\r";
      }
    }
  }

  /** The lines ended by "\r\n", except the last, which has no ending. */
  function CrlfText(lines: seq<string>): string
    requires |lines| >= 1
  {
    Join(WithCR(lines), '\n')
  }

  function WithCR(lines: seq<string>): (ps: seq<string>)
    requires |lines| >= 1
    ensures |ps| == |lines| && ps[|ps| - 1] == lines[|lines| - 1]
    ensures forall k :: 0 <= k < |lines| - 1 ==> ps[k] == lines[k] + "\r"
  {
    seq(|lines|, k requires 0 <= k < |lines| => if k < |lines| - 1 then lines[k] + "\r" else lines[k])
  }

  /** Splitting a text written with "\r\n" line endings gives the lines
      back, whatever they hold besides line feeds (a line that itself ends
      in '\r' keeps it). */
  lemma SplitLinesCrlf(lines: seq<string>)
    requires |lines| >= 1
    requires forall k :: 0 <= k < |lines| ==> '\n' !in lines[k]
    ensures SplitLines(CrlfText(lines)) == lines
  {
    var ps := WithCR(lines);
    forall k | 0 <= k < |ps| ensures '\n' !in ps[k] {
      if k < |lines| - 1 {
        assert ps[k] == lines[k] + "\r";
      }
    }
    SplitJoin(ps, '\n');
    var r := SplitLines(CrlfText(lines));
    forall k | 0 <= k < |lines| - 1 ensures r[k] == lines[k] {
      assert ps[k] == lines[k] + "\r";
      assert DropCR(ps[k]) == lines[k];
    }
  }

  /** `cols[j]`, `undefined` past the end. */
  function Field(cols: seq<string>, j: nat): Option<string> {
    if j < |cols| then Some(cols[j]) else None
  }

  /** Position `j` holds the last occurrence of its header name; an
      earlier duplicate is overwritten by it. */
  predicate LastOccurrence(header: seq<string>, j: int) {
    && 0 <= j < |header|
    && forall k :: j < k < |header| ==> header[k] != header[j]
  }

  /** The record built by `obj[header[j]] = cols[j]` for `j` from 0 up. */
  function RowOf(header: seq<string>, cols: seq<string>): Row
    decreases |header|
  {
    if |header| == 0 then map[]
    else
      var n := |header| - 1;
      RowOf(header[..n], cols)[header[n] := Field(cols, n)]
  }

  /** Every header name is a key of the record, and nothing else is. */
  lemma {:induction false} RowOfKeys(header: seq<string>, cols: seq<string>)
    ensures RowOf(header, cols).Keys == set h | h in header
    decreases |header|
  {
    if |header| > 0 {
      var n := |header| - 1;
      RowOfKeys(header[..n], cols);
      assert header == header[..n] + [header[n]];
    }
  }

  /** A header name maps to the field at its last occurrence: a later
      duplicate column overwrites an earlier one. */
  lemma {:induction false} RowOfField(header: seq<string>, cols: seq<string>, j: int)
    requires LastOccurrence(header, j)
    ensures header[j] in RowOf(header, cols) && RowOf(header, cols)[header[j]] == Field(cols, j)
    decreases |header|
  {
    var n := |header| - 1;
    if j < n {
      assert header[..n][j] == header[j];
      assert LastOccurrence(header[..n], j);
      RowOfField(header[..n], cols, j);
    }
  }

  /** The lines of the trimmed text. */
  function Lines(text: string): (lines: seq<string>)
    ensures |lines| >= 1
  {
    SplitLines(Trim(text))
  }

  /** The comma-separated names on the first line. */
  function Header(text: string): seq<string> {
    Split(Lines(text)[0], ',')
  }

  /** The record of line `i + 1`. */
  function RecordAt(header: seq<string>, lines: seq<string>, i: nat): (r: Row)
    requires i + 1 < |lines|
    ensures r.Keys == set h | h in header
    ensures forall j :: LastOccurrence(header, j) ==> r[header[j]] == Field(Split(lines[i + 1], ','), j)
  {
    var cols := Split(lines[i + 1], ',');
    RowOfKeys(header, cols);
    forall j | LastOccurrence(header, j) ensures RowOf(header, cols)[header[j]] == Field(cols, j) {
      RowOfField(header, cols, j);
    }
    RowOf(header, cols)
  }

  /** The records of `lines`: one per line after the first, mapping each
      name of the first line to the comma field at its position. */
  function ParseLines(lines: seq<string>): (rows: seq<Row>)
    requires |lines| >= 1
    ensures |rows| == |lines| - 1
    ensures forall i :: 0 <= i < |rows| ==> rows[i].Keys == set h | h in Split(lines[0], ',')
    ensures forall i, j :: 0 <= i < |rows| && LastOccurrence(Split(lines[0], ','), j) ==>
      rows[i][Split(lines[0], ',')[j]] == Field(Split(lines[i + 1], ','), j)
  {
    var header := Split(lines[0], ',');
    seq(|lines| - 1, i requires 0 <= i < |lines| - 1 => RecordAt(header, lines, i))
  }

  /** `parseCsv`: the records of the lines of the trimmed text; missing
      trailing fields are `undefined` and extra fields are dropped. */
  function ParseCsv(text: string): (rows: seq<Row>)
    ensures |rows| == |Lines(text)| - 1
    ensures forall i :: 0 <= i < |rows| ==> rows[i].Keys == set h | h in Header(text)
    ensures forall i, j :: 0 <= i < |rows| && LastOccurrence(Header(text), j) ==>
      rows[i][Header(text)[j]] == Field(Split(Lines(text)[i + 1], ','), j)
  {
    ParseLines(Lines(text))
  }
}

=== FILE: gsi_registry.dfy ===
/** The GSI 1003-mountain registry of mountaimSets.js: `buildGsiMap` keeps,
    per normalised name, the earliest of the highest rows (except that a first
    row whose elevation is NaN is kept even over later higher rows), and
    `tryLookup` resolves a name
    through kana/kanji spelling variants and one alias. */
module GsiRegistry {
  import opened Optional
  import opened JsText
  import JsNumber
  import opened NameNorm
  import opened Csv

  const NAME_COLUMN: string := "山名＜山頂名＞"
  const ELEV_COLUMN: string := "標高値(m)"
  const LAT_COLUMN: string := "緯度"
  const LON_COLUMN: string := "経度"

  /** A registry entry; `elev` is `None` when the elevation text is not a
      number (NaN in JavaScript). */
  datatype GsiEntry = GsiEntry(name: string, elev: Option<real>, lat: real, lon: real)

  /** `r[key]`: `undefined` for a column the file does not have. */
  function Get(r: Row, key: string): Option<string> {
    if key in r then r[key] else None
  }

  /** `String(v)`. */
  function JsString(v: Option<string>): string {
    match v
    case Some(s) => s
    case None => "undefined"
  }

  /** `Number(v)`; `undefined` is NaN. */
  function NumberOf(v: Option<string>): Option<real> {
    match v
    case Some(s) => JsNumber.ParseNumber(s)
    case None => None
  }

  predicate Numeric(c: char) {
    JsNumber.IsDigit(c) || c == '.'
  }

  /** `s.replace(/[^0-9.]/g, "")`. */
  function KeepNumeric(s: string): (r: string)
    ensures forall i :: 0 <= i < |r| ==> Numeric(r[i])
    ensures NoSpace(r)
    ensures (forall i :: 0 <= i < |s| ==> Numeric(s[i])) ==> r == s
    ensures (forall i :: 0 <= i < |s| ==> !Numeric(s[i])) ==> r == ""
  {
    if |s| == 0 then s
    else if Numeric(s[0]) then [s[0]] + KeepNumeric(s[1..])
    else KeepNumeric(s[1..])
  }

  /** Filtering works piece by piece: the digits and points of `a + b` are
      those of `a` followed by those of `b`. */
  lemma {:induction false} KeepNumericAppend(a: string, b: string)
    ensures KeepNumeric(a + b) == KeepNumeric(a) + KeepNumeric(b)
    decreases |a|
  {
    if |a| > 0 {
      assert (a + b)[1..] == a[1..] + b;
      KeepNumericAppend(a[1..], b);
    } else {
      assert a + b == b;
    }
  }

  /** The normalised mountain name of a row (`normName(undefined)` is ""). */
  function RowName(r: Row): string {
    NormName(Get(r, NAME_COLUMN).GetOr(""))
  }

  /** The elevation of a row: the digits and points of its elevation text
      read as a number. Signs and whitespace never survive the filter, so
      the value is 0 when nothing is left (a missing column reads
      "undefined", which has no digits) and the plain literal otherwise. */
  function RowElev(r: Row): (e: Option<real>)
    ensures e.Some? ==> e.value >= 0.0
    ensures var t := KeepNumeric(JsString(Get(r, ELEV_COLUMN)));
      e == if t == "" then Some(0.0) else JsNumber.DecimalValue(t)
    ensures Get(r, ELEV_COLUMN).None? ==> e == Some(0.0)
  {
    var t := KeepNumeric(JsString(Get(r, ELEV_COLUMN)));
    NumericValue(t);
    UndefinedHasNoDigits();
    JsNumber.ParseNumber(t)
  }

  /** `String(undefined)` keeps nothing through the filter. */
  lemma UndefinedHasNoDigits()
    ensures KeepNumeric(JsString(None)) == ""
  {
    var u := JsString(None);
    assert forall i :: 0 <= i < |u| ==> !Numeric(u[i]);
  }

  /** `Number` of digits and points: 0 when empty, else the unsigned literal. */
  lemma NumericValue(t: string)
    requires forall i :: 0 <= i < |t| ==> Numeric(t[i])
    ensures JsNumber.ParseNumber(t) == if t == "" then Some(0.0) else JsNumber.DecimalValue(t)
  {
    assert NoSpace(t);
    JsNumber.ParseNumberNoSpace(t);
  }

  /** An elevation written as digits followed by text without digits or
      points (a unit, say) reads as those digits. */
  lemma ElevationOfDigits(r: Row, d: string, x: string)
    requires Get(r, ELEV_COLUMN) == Some(d + x)
    requires |d| > 0 && JsNumber.AllDigits(d)
    requires forall i :: 0 <= i < |x| ==> !Numeric(x[i])
    ensures RowElev(r) == Some(JsNumber.DigitsValue(d) as real)
  {
    KeepNumericAppend(d, x);
    assert KeepNumeric(d) == d;
    assert KeepNumeric(x) == "";
    assert KeepNumeric(d + x) == d;
  }

  function RowLat(r: Row): Option<real> {
    NumberOf(Get(r, LAT_COLUMN))
  }

  function RowLon(r: Row): Option<real> {
    NumberOf(Get(r, LON_COLUMN))
  }

  /** A row `buildGsiMap` does not skip: a non-empty name and finite
      coordinates. */
  predicate Accepted(r: Row) {
    RowName(r) != "" && RowLat(r).Some? && RowLon(r).Some?
  }

  /** What a row contributes: its entry when accepted, nothing when skipped. */
  function Candidate(r: Row): (c: Option<GsiEntry>)
    ensures c.Some? <==> Accepted(r)
    ensures c.Some? ==> c.value.name == RowName(r) != "" && c.value.elev == RowElev(r)
                        && Some(c.value.lat) == RowLat(r) && Some(c.value.lon) == RowLon(r)
  {
    if Accepted(r) then Some(GsiEntry(RowName(r), RowElev(r), RowLat(r).value, RowLon(r).value)) else None
  }

  /** An entry of name `n`. */
  predicate Named(c: Option<GsiEntry>, n: string) {
    c.Some? && c.value.name == n
  }

  /** JavaScript `a > b`, false when either is NaN. */
  predicate Gt(a: Option<real>, b: Option<real>) {
    a.Some? && b.Some? && a.value > b.value
  }

  /** JavaScript `a >= b`, false when either is NaN. */
  predicate Ge(a: Option<real>, b: Option<real>) {
    a.Some? && b.Some? && a.value >= b.value
  }

  /** The index of the first entry of name `n`, -1 when there is none. */
  ghost function FirstNamed(cs: seq<Option<GsiEntry>>, n: string): (f: int)
    ensures -1 <= f < |cs|
    ensures f >= 0 ==> Named(cs[f], n)
    ensures forall j :: 0 <= j < |cs| && (f < 0 || j < f) ==> !Named(cs[j], n)
  {
    if |cs| == 0 then -1
    else
      var p := cs[..|cs| - 1];
      var f := FirstNamed(p, n);
      assert forall j :: 0 <= j < |p| ==> p[j] == cs[j];
      if f >= 0 then f else if Named(cs[|cs| - 1], n) then |cs| - 1 else -1
  }

  /** Entry `k` is the one kept for name `n`: no earlier entry of that name
      is as high and no later one is higher. A NaN elevation is kept only
      when it belongs to the first entry of the name, and then it is never
      replaced. These conditions single out one index (`KeptAmongUnique`). */
  ghost predicate KeptAmong(cs: seq<Option<GsiEntry>>, n: string, k: int) {
    && 0 <= k < |cs|
    && Named(cs[k], n)
    && (forall j :: 0 <= j < k && Named(cs[j], n) ==> !Ge(cs[j].value.elev, cs[k].value.elev))
    && (forall j :: k < j < |cs| && Named(cs[j], n) ==> !Gt(cs[j].value.elev, cs[k].value.elev))
    && (cs[k].value.elev.None? ==> k == FirstNamed(cs, n))
    && (var f := FirstNamed(cs, n); 0 <= f && cs[f].value.elev.None? ==> k == f)
  }

  /** At most one index is the kept one. */
  lemma KeptAmongUnique(cs: seq<Option<GsiEntry>>, n: string, k1: int, k2: int)
    requires KeptAmong(cs, n, k1) && KeptAmong(cs, n, k2)
    ensures k1 == k2
  {
  }

  /** One step of the loop: the entry is stored when its name is new or
      when it is strictly higher than the stored one. */
  function Step(m: map<string, GsiEntry>, c: Option<GsiEntry>): map<string, GsiEntry> {
    if c.Some? && (c.value.name !in m || Gt(c.value.elev, m[c.value.name].elev)) then m[c.value.name := c.value]
    else m
  }

  /** The map after the loop has seen all of `cs`. */
  function Fold(cs: seq<Option<GsiEntry>>): map<string, GsiEntry> {
    if |cs| == 0 then map[] else Step(Fold(cs[..|cs| - 1]), cs[|cs| - 1])
  }

  /** The index of the entry the loop keeps for `n`, -1 when there is none. */
  ghost function KeptIndex(cs: seq<Option<GsiEntry>>, n: string): (k: int)
    ensures -1 <= k < |cs|
    ensures k >= 0 ==> Named(cs[k], n)
  {
    if |cs| == 0 then -1
    else
      var k := KeptIndex(cs[..|cs| - 1], n);
      var c := cs[|cs| - 1];
      if Named(c, n) && (k < 0 || Gt(c.value.elev, cs[k].value.elev)) then |cs| - 1 else k
  }

  /** The fold stores for `n` exactly the entry at `KeptIndex`. */
  lemma {:induction false} FoldAt(cs: seq<Option<GsiEntry>>, n: string)
    ensures n in Fold(cs) <==> KeptIndex(cs, n) >= 0
    ensures n in Fold(cs) ==> Named(cs[KeptIndex(cs, n)], n) && Fold(cs)[n] == cs[KeptIndex(cs, n)].value
  {
    if |cs| > 0 {
      var p := cs[..|cs| - 1];
      FoldAt(p, n);
      forall j | 0 <= j < |p| ensures p[j] == cs[j] {}
    }
  }

  /** The index `KeptIndex` picks is, when its own elevation is a number,
      the earliest of the highest entries of the name; a first entry whose
      elevation is NaN is kept even over later higher ones. There is one
      exactly when the name occurs. */
  lemma {:induction false} KeptIndexIsKept(cs: seq<Option<GsiEntry>>, n: string)
    ensures KeptIndex(cs, n) >= 0 ==> KeptAmong(cs, n, KeptIndex(cs, n))
    ensures KeptIndex(cs, n) < 0 <==> forall j :: 0 <= j < |cs| ==> !Named(cs[j], n)
  {
    if |cs| > 0 {
      var p := cs[..|cs| - 1];
      KeptIndexIsKept(p, n);
      var k := KeptIndex(p, n);
      forall j | 0 <= j < |p| ensures p[j] == cs[j] {}
      var c := cs[|cs| - 1];
      if Named(c, n) && k >= 0 && Gt(c.value.elev, cs[k].value.elev) {
        forall j | 0 <= j < |p| && Named(cs[j], n)
          ensures !Ge(cs[j].value.elev, c.value.elev)
        {
          assert Named(p[j], n);
          if j < k {
            assert !Ge(p[j].value.elev, p[k].value.elev);
          } else if j > k {
            assert !Gt(p[j].value.elev, p[k].value.elev);
          }
        }
      }
    }
  }

  /** When its own elevation is a number, the kept entry is at least as high
      as every entry of its name whose elevation is a number; a first entry
      whose elevation is NaN is kept even over later higher entries. */
  lemma KeptIsHighest(cs: seq<Option<GsiEntry>>, n: string, k: int)
    requires KeptAmong(cs, n, k)
    ensures forall j :: 0 <= j < |cs| && Named(cs[j], n) && cs[j].value.elev.Some? && cs[k].value.elev.Some? ==>
      cs[j].value.elev.value <= cs[k].value.elev.value
  {
  }

  /** A first entry whose elevation is NaN is the one stored, whatever
      follows: `elev > prev.elev` is false against NaN, so no later entry,
      however high, replaces it. */
  lemma NaNFirstKeptOverHigher(cs: seq<Option<GsiEntry>>, n: string)
    requires FirstNamed(cs, n) >= 0 && cs[FirstNamed(cs, n)].value.elev.None?
    ensures n in Fold(cs) && Fold(cs)[n] == cs[FirstNamed(cs, n)].value
  {
    FoldAt(cs, n);
    KeptIndexIsKept(cs, n);
  }

  /** The loop of `buildGsiMap` over the rows' contributions: the first
      entry of a name is stored, and a later one replaces it only when
      strictly higher. */
  method KeepHighest(cs: seq<Option<GsiEntry>>) returns (m: map<string, GsiEntry>)
    ensures forall n :: n in m <==> exists i :: 0 <= i < |cs| && Named(cs[i], n)
    ensures forall n :: n in m ==> exists k :: KeptAmong(cs, n, k) && m[n] == cs[k].value
    ensures forall n, j :: n in m && 0 <= j < |cs| && Named(cs[j], n) && cs[j].value.elev.Some? && m[n].elev.Some? ==>
      cs[j].value.elev.value <= m[n].elev.value
  {
    m := map[];
    var i := 0;
    while i < |cs|
      invariant 0 <= i <= |cs|
      invariant m == Fold(cs[..i])
    {
      assert cs[..i + 1][..i] == cs[..i];
      m := Step(m, cs[i]);
      i := i + 1;
    }
    assert cs[..i] == cs;
    forall n ensures (n in m <==> exists i :: 0 <= i < |cs| && Named(cs[i], n))
      && (n in m ==> KeptAmong(cs, n, KeptIndex(cs, n)) && m[n] == cs[KeptIndex(cs, n)].value)
    {
      FoldAt(cs, n);
      KeptIndexIsKept(cs, n);
    }
    forall n | n in m {
      KeptIsHighest(cs, n, KeptIndex(cs, n));
    }
  }

  /** `m` is what `buildGsiMap` makes of `rows`: one entry per normalised
      name of an accepted row (a non-empty name and finite coordinates),
      namely the entry of the row the loop keeps for that name, which, when
      its own elevation is a number, is at least as high as every row of the
      name with a numeric elevation; a first row whose elevation is NaN is
      kept even over later higher rows. */
  ghost predicate IsRegistry(rows: seq<Row>, m: map<string, GsiEntry>) {
    && (forall n :: n in m <==> exists i :: 0 <= i < |rows| && Named(Candidate(rows[i]), n))
    && (forall n :: n in m ==> exists k :: KeptAmong(Contributions(rows), n, k) && Some(m[n]) == Candidate(rows[k]))
    && (forall n, j :: n in m && 0 <= j < |rows| && Named(Candidate(rows[j]), n) && RowElev(rows[j]).Some? && m[n].elev.Some? ==>
          RowElev(rows[j]).value <= m[n].elev.value)
  }

  /** `buildGsiMap`. */
  method BuildGsiMap(rows: seq<Row>) returns (m: map<string, GsiEntry>)
    ensures IsRegistry(rows, m)
  {
    var cs := Contributions(rows);
    m := KeepHighest(cs);
    forall n | n in m
      ensures exists k :: KeptAmong(cs, n, k) && Some(m[n]) == Candidate(rows[k])
    {
      var k :| KeptAmong(cs, n, k) && m[n] == cs[k].value;
      assert Some(m[n]) == Candidate(rows[k]);
    }
  }

  /** The contributions of all rows, in file order. */
  function Contributions(rows: seq<Row>): (cs: seq<Option<GsiEntry>>)
    ensures |cs| == |rows| && forall i :: 0 <= i < |rows| ==> cs[i] == Candidate(rows[i])
  {
    seq(|rows|, i requires 0 <= i < |rows| => Candidate(rows[i]))
  }

  /** The four one-character respellings, in the order they are tried:
      ヶ→ケ, ケ→ヶ, ノ→の and の→ノ. */
  const RESPELLINGS: seq<(char, char)> := [('ヶ', 'ケ'), ('ケ', 'ヶ'), ('ノ', 'の'), ('の', 'ノ')]

  /** Variant `k` of a name: the name itself for 0, and for `k` from 1 to 4
      the name with every occurrence of the `k`-th respelling's first
      character replaced by its second. */
  function Variant(name: string, k: nat): (v: string)
    requires k <= |RESPELLINGS|
    ensures |v| == |name|
    ensures forall i :: 0 <= i < |name| ==>
      v[i] == if k > 0 && name[i] == RESPELLINGS[k - 1].0 then RESPELLINGS[k - 1].1 else name[i]
  {
    if k == 0 then name else ReplaceChar(name, RESPELLINGS[k - 1].0, RESPELLINGS[k - 1].1)
  }

  /** The normalised spelling variants, in the order they are tried. */
  function Candidates(name: string): (cs: seq<string>)
    ensures |cs| == 1 + |RESPELLINGS|
    ensures forall k :: 0 <= k < |cs| ==> cs[k] == NormName(Variant(name, k))
  {
    seq(1 + |RESPELLINGS|, k requires 0 <= k <= |RESPELLINGS| => NormName(Variant(name, k)))
  }

  /** A name without ヶ, ケ, ノ or の is its own variant. */
  lemma VariantPlain(name: string, k: nat)
    requires k <= |RESPELLINGS|
    requires 'ヶ' !in name && 'ケ' !in name && 'ノ' !in name && 'の' !in name
    ensures Variant(name, k) == name
  {
    var v := Variant(name, k);
    forall i | 0 <= i < |name| ensures v[i] == name[i] {
      assert name[i] in name;
    }
  }

  /** A name without ヶ, ケ, ノ or の has no other variant than itself. */
  lemma CandidatesPlain(name: string)
    requires 'ヶ' !in name && 'ケ' !in name && 'ノ' !in name && 'の' !in name
    ensures forall k :: 0 <= k < |Candidates(name)| ==> Candidates(name)[k] == NormName(name)
  {
    forall k | 0 <= k <= |RESPELLINGS| ensures Candidates(name)[k] == NormName(name) {
      VariantPlain(name, k);
    }
  }

  /** The entry of the first of `cs` that is a key of `m`. */
  function FirstHit(m: map<string, GsiEntry>, cs: seq<string>): (r: Option<GsiEntry>)
    ensures r.Some? <==> exists i :: 0 <= i < |cs| && cs[i] in m
    ensures forall i :: 0 <= i < |cs| && cs[i] in m && (forall j :: 0 <= j < i ==> cs[j] !in m) ==> r == Some(m[cs[i]])
  {
    if |cs| == 0 then None
    else if cs[0] in m then Some(m[cs[0]])
    else
      var r := FirstHit(m, cs[1..]);
      assert forall i :: 1 <= i < |cs| ==> cs[i] == cs[1..][i - 1];
      r
  }

  /** The hard-coded spelling alias. */
  const ALIAS_FROM: string := "大菩薩峠"
  const ALIAS_TO: string := "大菩薩嶺"
  const ALIAS: map<string, string> := map[ALIAS_FROM := ALIAS_TO]

  lemma AliasTargetIsNormal()
    ensures NormName(ALIAS_TO) == ALIAS_TO
  {
    AliasTargetClean(ALIAS_TO);
    NormNameFixedPoint(ALIAS_TO);
  }

  lemma AliasTargetClean(s: string)
    requires s == ['大', '菩', '薩', '嶺']
    ensures NoSpace(s) && BracketFree(s)
  {
    assert forall i :: 0 <= i < |s| ==> s[i] in ['大', '菩', '薩', '嶺'];
  }

  /** The registry entry of the normalised alias target, if any. */
  function TargetHit(m: map<string, GsiEntry>, ali: string): Option<GsiEntry> {
    var t := NormName(ali);
    if t in m then Some(m[t]) else None
  }

  lemma AliasDomain(key: string)
    ensures key in ALIAS <==> key == ALIAS_FROM
    ensures key in ALIAS ==> ALIAS[key] == ALIAS_TO
  {
  }

  /** The alias step: the entry of the alias target of a normalised name,
      when it has one and the target is a key. */
  function AliasHit(m: map<string, GsiEntry>, key: string): (r: Option<GsiEntry>)
    ensures r == if key == ALIAS_FROM && ALIAS_TO in m then Some(m[ALIAS_TO]) else None
  {
    AliasDomain(key);
    AliasTargetIsNormal();
    if key in ALIAS then TargetHit(m, ALIAS[key]) else None
  }

  /** `tryLookup`: the entry of the first spelling variant present; only
      when all miss, the entry of the alias of 大菩薩峠; null when that
      misses too. */
  function TryLookup(m: map<string, GsiEntry>, name: string): (r: Option<GsiEntry>)
    ensures var cs := Candidates(name);
      forall i :: 0 <= i < |cs| && cs[i] in m && (forall j :: 0 <= j < i ==> cs[j] !in m) ==> r == Some(m[cs[i]])
    ensures var cs := Candidates(name);
      (forall i :: 0 <= i < |cs| ==> cs[i] !in m) ==>
        r == if NormName(name) == ALIAS_FROM && ALIAS_TO in m then Some(m[ALIAS_TO]) else None
  {
    LookupIn(m, Candidates(name), NormName(name))
  }

  /** The two stages of `tryLookup` for given candidates and alias key:
      the first candidate that is a key, else the alias step. */
  function LookupIn(m: map<string, GsiEntry>, cs: seq<string>, key: string): (r: Option<GsiEntry>)
    ensures forall i :: 0 <= i < |cs| && cs[i] in m && (forall j :: 0 <= j < i ==> cs[j] !in m) ==> r == Some(m[cs[i]])
    ensures (forall i :: 0 <= i < |cs| ==> cs[i] !in m) ==>
      r == if key == ALIAS_FROM && ALIAS_TO in m then Some(m[ALIAS_TO]) else None
  {
    var hit := FirstHit(m, cs);
    if hit.Some? then hit else AliasHit(m, key)
  }
}

=== FILE: js_number.dfy ===
/** JavaScript's `Number(string)` on the decimal forms mountaimSets.js meets:
    surrounding whitespace, the empty string (which is 0), an optional sign,
    and digits with at most one decimal point. */
module JsNumber {
  import opened Optional
  import opened JsText

  predicate IsDigit(c: char) {
    '0' <= c <= '9'
  }

  predicate AllDigits(s: string) {
    forall i :: 0 <= i < |s| ==> IsDigit(s[i])
  }

  function DigitValue(c: char): nat
    requires IsDigit(c)
  {
    c as int - '0' as int
  }

  function DigitChar(d: nat): (c: char)
    requires d < 10
    ensures IsDigit(c) && DigitValue(c) == d
  {
    ('0' as int + d) as char
  }

  function Pow10(n: nat): (p: nat)
    ensures p >= 1
  {
    if n == 0 then 1 else 10 * Pow10(n - 1)
  }

  /** The value of a string of decimal digits, most significant first. */
  function DigitsValue(s: string): nat
    requires AllDigits(s)
  {
    if |s| == 0 then 0 else 10 * DigitsValue(s[..|s| - 1]) + DigitValue(s[|s| - 1])
  }

  /** An unsigned decimal literal `digits`, `digits.`, `.digits` or
      `digits.digits`; `None` for anything else (JavaScript's NaN). */
  function DecimalValue(s: string): (r: Option<real>)
    ensures r.Some? ==> r.value >= 0.0
    ensures |s| > 0 && AllDigits(s) ==> r == Some(DigitsValue(s) as real)
    ensures r.Some? ==> |s| > 0 && (forall i :: 0 <= i < |s| ==> IsDigit(s[i]) || s[i] == '.')
  {
    var k := IndexOf(s, '.');
    if k < 0 then
      if |s| > 0 && AllDigits(s) then Some(DigitsValue(s) as real) else None
    else
      assert s == s[..k] + ['.'] + s[k + 1..];
      PointValue(s[..k], s[k + 1..])
  }

  /** The value of `w.f`: the whole digits plus the fraction digits over
      the matching power of ten; at least one digit is needed. */
  function PointValue(w: string, f: string): (r: Option<real>)
    ensures r.Some? ==> r.value >= 0.0 && AllDigits(w) && AllDigits(f) && |w| + |f| > 0
  {
    if AllDigits(w) && AllDigits(f) && |w| + |f| > 0 then
      Some(DigitsValue(w) as real + DigitsValue(f) as real / Pow10(|f|) as real)
    else None
  }

  /** A literal has at most one decimal point. */
  lemma DecimalOnePoint(s: string)
    requires DecimalValue(s).Some?
    ensures forall i, j :: 0 <= i < j < |s| && s[i] == '.' ==> s[j] != '.'
  {
    var k := IndexOf(s, '.');
    if k >= 0 {
      forall i | 0 <= i < |s| && i != k ensures s[i] != '.' {
        if i < k {
          assert s[..k][i] == s[i];
        } else {
          assert s[k + 1..][i - k - 1] == s[i];
          assert IsDigit(s[k + 1..][i - k - 1]);
        }
      }
    } else {
      assert forall i :: 0 <= i < |s| ==> IsDigit(s[i]);
    }
  }

  /** In `w.f` with digits before it, the point is the first one, with `w`
      before it and `f` after it. */
  lemma PointAt(w: string, f: string)
    requires AllDigits(w)
    ensures IndexOf(w + ['.'] + f, '.') == |w|
    ensures (w + ['.'] + f)[..|w|] == w && (w + ['.'] + f)[|w| + 1..] == f
  {
    var s := w + ['.'] + f;
    assert s[|w|] == '.';
    assert s[..|w|] == w;
    assert '.' !in w by {
      forall i | 0 <= i < |w| ensures w[i] != '.' {
        assert IsDigit(w[i]);
      }
    }
    IndexOfUnique(s, '.', |w|);
    assert s[|w| + 1..] == f;
  }

  /** A literal with a point: the whole part plus the fraction digits over
      the matching power of ten. */
  lemma DecimalOfParts(w: string, f: string)
    requires AllDigits(w) && AllDigits(f) && |w| + |f| > 0
    ensures DecimalValue(w + ['.'] + f) == PointValue(w, f)
    ensures PointValue(w, f).Some?
  {
    PointAt(w, f);
    DecimalAtPoint(w + ['.'] + f, |w|);
  }

  /** With its first point at `k`, a literal is worth the value of the
      digits around the point. */
  lemma DecimalAtPoint(s: string, k: nat)
    requires k < |s| && IndexOf(s, '.') == k
    ensures DecimalValue(s) == PointValue(s[..k], s[k + 1..])
  {
  }

  lemma ScaleFraction(d: real, p: real)
    requires p > 0.0
    ensures (10.0 * d) / (10.0 * p) == d / p
  {
  }

  /** The fraction digits followed by a zero are worth ten times as much. */
  lemma DigitsAppendZero(f: string)
    requires AllDigits(f)
    ensures AllDigits(f + ['0']) && DigitsValue(f + ['0']) == 10 * DigitsValue(f)
  {
    assert (f + ['0'])[..|f|] == f;
  }

  /** A trailing zero after the point does not change the value. */
  lemma DecimalTrailingZero(w: string, f: string)
    requires AllDigits(w) && AllDigits(f) && |w| + |f| > 0
    ensures DecimalValue(w + ['.'] + f + ['0']) == DecimalValue(w + ['.'] + f)
  {
    var f0 := f + ['0'];
    DigitsAppendZero(f);
    DecimalOfParts(w, f);
    DecimalOfParts(w, f0);
    assert w + ['.'] + f + ['0'] == w + ['.'] + f0;
    PointValueTrailingZero(w, f);
  }

  lemma PointValueTrailingZero(w: string, f: string)
    requires AllDigits(w) && AllDigits(f) && |w| + |f| > 0
    ensures PointValue(w, f + ['0']) == PointValue(w, f)
  {
    DigitsAppendZero(f);
    ScaleFraction(DigitsValue(f) as real, Pow10(|f|) as real);
  }

  /** A bare point after the digits is the integer itself. */
  lemma DecimalBarePoint(w: string)
    requires AllDigits(w) && |w| > 0
    ensures DecimalValue(w + ['.']) == DecimalValue(w)
  {
    DecimalOfParts(w, "");
    assert w + ['.'] + "" == w + ['.'];
  }

  /** Unary minus; NaN stays NaN. */
  function Negated(r: Option<real>): Option<real> {
    match r
    case Some(v) => Some(-v)
    case None => None
  }

  /** `Number(s)` for a string `s`; `None` stands for NaN. */
  function ParseNumber(s: string): (r: Option<real>)
    ensures Trim(s) == "" ==> r == Some(0.0)
    ensures |Trim(s)| > 0 && AllDigits(Trim(s)) ==> r == Some(DigitsValue(Trim(s)) as real)
    ensures r.Some? && r.value < 0.0 ==> Trim(s)[0] == '-'
  {
    Signed(Trim(s))
  }

  /** `Number` of an already trimmed text: empty is 0, then an optional
      sign in front of an unsigned literal. */
  function Signed(t: string): Option<real> {
    if t == "" then Some(0.0)
    else if t[0] == '-' then Negated(DecimalValue(t[1..]))
    else if t[0] == '+' then DecimalValue(t[1..])
    else DecimalValue(t)
  }

  /** Trimming changes nothing on a text without whitespace. */
  lemma ParseNumberNoSpace(t: string)
    requires NoSpace(t)
    ensures ParseNumber(t) == Signed(t)
  {
  }

  /** Putting a sign in front of a text without whitespace keeps it so. */
  lemma SignedNoSpace(c: char, w: string)
    requires NoSpace(w) && !IsSpace(c)
    ensures NoSpace([c] + w) && ([c] + w)[0] == c && ([c] + w)[1..] == w
  {
    var m := [c] + w;
    forall i | 0 <= i < |m| ensures !IsSpace(m[i]) {
      if i > 0 { assert m[i] == w[i - 1]; }
    }
  }

  /** A leading '-' negates the value; NaN stays NaN. */
  lemma ParseNumberMinusSign(w: string)
    requires NoSpace(w) && |w| > 0 && w[0] != '-' && w[0] != '+'
    ensures ParseNumber(['-'] + w) == Negated(ParseNumber(w))
  {
    ParseNumberNoSpace(w);
    SignedNoSpace('-', w);
    ParseNumberNoSpace(['-'] + w);
  }

  /** A leading '+' keeps the value. */
  lemma ParseNumberPlusSign(w: string)
    requires NoSpace(w) && |w| > 0 && w[0] != '-' && w[0] != '+'
    ensures ParseNumber(['+'] + w) == ParseNumber(w)
  {
    ParseNumberNoSpace(w);
    SignedNoSpace('+', w);
    ParseNumberNoSpace(['+'] + w);
  }

  /** The decimal rendering of a natural number, without leading zeros. */
  function NatToString(n: nat): (s: string)
    ensures |s| > 0 && AllDigits(s)
  {
    if n < 10 then [DigitChar(n)] else NatToString(n / 10) + [DigitChar(n % 10)]
  }

  /** Reading back the rendering of `n` gives `n`. */
  lemma {:induction false} DigitsValueOfNatToString(n: nat)
    ensures DigitsValue(NatToString(n)) == n
  {
    if n >= 10 {
      var s := NatToString(n);
      DigitsValueOfNatToString(n / 10);
      assert s[..|s| - 1] == NatToString(n / 10);
    }
  }

  /** `Number(String(n)) == n` for every natural number `n`. */
  lemma ParseNumberOfNatToString(n: nat)
    ensures ParseNumber(NatToString(n)) == Some(n as real)
  {
    var s := NatToString(n);
    assert NoSpace(s) by {
      forall i | 0 <= i < |s| ensures !IsSpace(s[i]) {
        assert IsDigit(s[i]);
      }
    }
    DigitsValueOfNatToString(n);
  }
}

=== FILE: js_text.dfy ===
/** The few JavaScript string operations the core relies on: the `\s` class,
    `trim`, `split` on one character, `indexOf`, `slice`, `startsWith`,
    `endsWith` and a global one-character `replace`. */
module JsText {

  /** ECMAScript WhiteSpace and LineTerminator code points: what the regex
      class `\s` matches and what `String.prototype.trim` strips. */
  predicate IsSpace(c: char) {
    || c == '\t' || c == '\n' || c == '\U{000B}' || c == '\U{000C}' || c == '\r'
    || c == ' ' || c == '\U{00A0}' || c == '\U{1680}'
    || ('\U{2000}' <= c <= '\U{200A}')
    || c == '\U{2028}' || c == '\U{2029}' || c == '\U{202F}' || c == '\U{205F}'
    || c == '\U{3000}' || c == '\U{FEFF}'
  }

  /** The line terminators, which the regex `.` does not match. */
  predicate IsLineBreak(c: char) {
    c == '\n' || c == '\r' || c == '\U{2028}' || c == '\U{2029}'
  }

  predicate NoSpace(s: string) {
    forall i :: 0 <= i < |s| ==> !IsSpace(s[i])
  }

  predicate NoLineBreak(s: string) {
    forall i :: 0 <= i < |s| ==> !IsLineBreak(s[i])
  }

  /** Every character of `r` occurs in `s`: `r` was obtained by deleting or
      keeping characters of `s`, never by inventing new ones. */
  predicate CharsFrom(r: string, s: string) {
    forall i :: 0 <= i < |r| ==> r[i] in s
  }

  /** `s.indexOf(x)` (also `Array.prototype.indexOf`): the first position of
      `x`, or -1. */
  function IndexOf<T(==)>(s: seq<T>, x: T): (r: int)
    ensures -1 <= r < |s|
    ensures r == -1 <==> x !in s
    ensures 0 <= r ==> s[r] == x && x !in s[..r]
  {
    if |s| == 0 then -1
    else if s[0] == x then 0
    else
      var k := IndexOf(s[1..], x);
      if k < 0 then -1
      else
        assert s[..k + 1] == [s[0]] + s[1..][..k];
        k + 1
  }

  /** The first occurrence is the unique position `i` holding `x` with no
      earlier `x`. */
  lemma IndexOfUnique<T>(s: seq<T>, x: T, i: nat)
    requires i < |s| && s[i] == x && x !in s[..i]
    ensures IndexOf(s, x) == i
  {
  }

  /** `s.replace(/\s+/g, "")`. */
  function RemoveSpaces(s: string): (r: string)
    ensures NoSpace(r)
    ensures |r| <= |s| && CharsFrom(r, s)
    ensures NoSpace(s) ==> r == s
  {
    if |s| == 0 then s
    else if IsSpace(s[0]) then RemoveSpaces(s[1..])
    else [s[0]] + RemoveSpaces(s[1..])
  }

  /** Removing whitespace works piece by piece: the text of `a + b` loses
      the whitespace of `a` and of `b` and keeps the rest in order. */
  lemma {:induction false} RemoveSpacesAppend(a: string, b: string)
    ensures RemoveSpaces(a + b) == RemoveSpaces(a) + RemoveSpaces(b)
    decreases |a|
  {
    if |a| > 0 {
      assert (a + b)[1..] == a[1..] + b;
      RemoveSpacesAppend(a[1..], b);
    } else {
      assert a + b == b;
    }
  }

  /** A single character is dropped exactly when it is whitespace. */
  lemma RemoveSpacesChar(c: char)
    ensures RemoveSpaces([c]) == if IsSpace(c) then "" else [c]
  {
  }

  /** `s.replace(/[c]/g, "")` for one character `c`. */
  function RemoveChar(s: string, c: char): (r: string)
    ensures c !in r
    ensures |r| <= |s| && CharsFrom(r, s)
    ensures c !in s ==> r == s
  {
    if |s| == 0 then s
    else if s[0] == c then RemoveChar(s[1..], c)
    else [s[0]] + RemoveChar(s[1..], c)
  }

  /** Removing `c` works piece by piece: the other characters of `a + b`
      are kept in order. */
  lemma {:induction false} RemoveCharAppend(a: string, b: string, c: char)
    ensures RemoveChar(a + b, c) == RemoveChar(a, c) + RemoveChar(b, c)
    decreases |a|
  {
    if |a| > 0 {
      assert (a + b)[1..] == a[1..] + b;
      RemoveCharAppend(a[1..], b, c);
    } else {
      assert a + b == b;
    }
  }

  /** A single character is dropped exactly when it is `c`. */
  lemma RemoveCharChar(d: char, c: char)
    ensures RemoveChar([d], c) == if d == c then "" else [d]
  {
  }

  /** `s.replace(/from/g, to)` for single characters. */
  function ReplaceChar(s: string, from: char, to: char): (r: string)
    ensures |r| == |s|
    ensures from != to ==> from !in r
    ensures forall i :: 0 <= i < |s| && s[i] == from ==> r[i] == to
    ensures forall i :: 0 <= i < |s| && s[i] != from ==> r[i] == s[i]
  {
    seq(|s|, i requires 0 <= i < |s| => if s[i] == from then to else s[i])
  }

  function TrimStart(s: string): (r: string)
    ensures |r| <= |s| && r == s[|s| - |r|..]
    ensures forall i :: 0 <= i < |s| - |r| ==> IsSpace(s[i])
    ensures |r| > 0 ==> !IsSpace(r[0])
  {
    if |s| > 0 && IsSpace(s[0]) then TrimStart(s[1..]) else s
  }

  function TrimEnd(s: string): (r: string)
    ensures |r| <= |s| && r == s[..|r|]
    ensures forall i :: |r| <= i < |s| ==> IsSpace(s[i])
    ensures |r| > 0 ==> !IsSpace(r[|r| - 1])
  {
    if |s| > 0 && IsSpace(s[|s| - 1]) then TrimEnd(s[..|s| - 1]) else s
  }

  /** `s.trim()`: the text between the leading and the trailing run of
      whitespace, which neither begins nor ends with whitespace. */
  function Trim(s: string): (r: string)
    ensures exists i :: TrimmedAt(s, r, i)
    ensures |r| > 0 ==> !IsSpace(r[0]) && !IsSpace(r[|r| - 1])
    ensures NoSpace(s) ==> r == s
  {
    var e := TrimEnd(s);
    var r := TrimStart(e);
    var i := |e| - |r|;
    assert TrimmedAt(s, r, i);
    r
  }

  /** `r` sits at position `i` of `s`, with only whitespace around it. */
  predicate TrimmedAt(s: string, r: string, i: int) {
    && 0 <= i <= |s| - |r|
    && r == s[i..i + |r|]
    && (forall k :: 0 <= k < i ==> IsSpace(s[k]))
    && (forall k :: i + |r| <= k < |s| ==> IsSpace(s[k]))
  }

  /** `s.slice(start, end)` for non-negative indices, which are clamped to the
      length; an empty string when the clamped range is empty. */
  function Slice(s: string, start: nat, end: nat): (r: string)
    ensures end <= |s| && start <= end ==> r == s[start..end]
    ensures |r| <= |s|
  {
    var from := if start < |s| then start else |s|;
    var to := if end < |s| then end else |s|;
    if to <= from then "" else s[from..to]
  }

  predicate StartsWith(s: string, prefix: string) {
    |prefix| <= |s| && s[..|prefix|] == prefix
  }

  predicate EndsWith(s: string, suffix: string) {
    |suffix| <= |s| && s[|s| - |suffix|..] == suffix
  }

  /** `s.split(sep)` for a one-character separator: the maximal pieces
      between separators, always at least one. */
  function Split(s: string, sep: char): (parts: seq<string>)
    ensures |parts| >= 1
    ensures forall k :: 0 <= k < |parts| ==> sep !in parts[k]
    decreases |s|
  {
    var i := IndexOf(s, sep);
    if i < 0 then [s] else [s[..i]] + Split(s[i + 1..], sep)
  }

  /** `parts.join(sep)`. */
  function Join(parts: seq<string>, sep: char): string
    requires |parts| >= 1
  {
    if |parts| == 1 then parts[0] else parts[0] + [sep] + Join(parts[1..], sep)
  }

  /** Joining the pieces of a split restores the text. */
  lemma {:induction false} JoinSplit(s: string, sep: char)
    ensures Join(Split(s, sep), sep) == s
    decreases |s|
  {
    var i := IndexOf(s, sep);
    if i >= 0 {
      var tail := s[i + 1..];
      SplitStep(s, sep, i);
      JoinSplit(tail, sep);
      JoinCons(s[..i], Split(tail, sep), sep);
    }
  }

  /** One step of a split: the piece before the first separator, then the
      split of what follows it. */
  lemma SplitStep(s: string, sep: char, i: int)
    requires i == IndexOf(s, sep) && i >= 0
    ensures Split(s, sep) == [s[..i]] + Split(s[i + 1..], sep)
    ensures s == s[..i] + [sep] + s[i + 1..]
  {
    CutAt(s, i);
  }

  lemma CutAt<T>(s: seq<T>, i: nat)
    requires i < |s|
    ensures s == s[..i] + [s[i]] + s[i + 1..]
  {
  }

  lemma JoinCons(p: string, rest: seq<string>, sep: char)
    requires |rest| >= 1
    ensures Join([p] + rest, sep) == p + [sep] + Join(rest, sep)
  {
    assert ([p] + rest)[1..] == rest;
  }

  /** Splitting a join of separator-free pieces gives the pieces back. */
  lemma {:induction false} SplitJoin(parts: seq<string>, sep: char)
    requires |parts| >= 1
    requires forall k :: 0 <= k < |parts| ==> sep !in parts[k]
    ensures Split(Join(parts, sep), sep) == parts
  {
    if |parts| > 1 {
      SplitJoin(parts[1..], sep);
      var s := Join(parts, sep);
      var p := parts[0];
      assert s[|p|] == sep;
      assert s[..|p|] == p;
      IndexOfUnique(s, sep, |p|);
      assert s[|p| + 1..] == Join(parts[1..], sep);
    }
  }
}

=== FILE: mountains_extra.dfy ===
/** The hit/miss partition of `buildMountainsExtraViaGSI` in
    mountaimSets.js: every name of the two lists is looked up in the
    registry and becomes either an output mountain or a miss. */
module MountainsExtra {
  import opened Optional
  import opened JsText
  import opened GsiRegistry
  import Csv

  /** The level every generated mountain gets. */
  const DEFAULT_LEVEL: string := "中級"
  /** How many missed names the statistics quote. */
  const NG_EXAMPLE_LIMIT: nat := 20

  const HANA_PREFIX: string := "hana"
  const N200_PREFIX: string := "n200"
  const HANA_SET: string := "HANA_100"
  const N200_SET: string := "NIHON_200"

  datatype SetNames = SetNames(hana100: seq<string>, nihon200Extra: seq<string>)

  datatype ExtraMountain = ExtraMountain(
    id: string, name: string, lat: real, lon: real, elev: Option<real>, level: string, sets: seq<string>)

  datatype Stats = Stats(hanaOk: nat, hanaTotal: nat, n200Ok: nat, n200Total: nat, ngExamples: seq<string>)

  /** `makeId`: the prefix, an underscore, and the encoded name with every
      `%` turned into `_`; `encode` stands for `encodeURIComponent`. */
  function MakeId(prefix: string, name: string, encode: string -> string): (id: string)
    ensures StartsWith(id, prefix + "_")
    ensures |id| == |prefix| + 1 + |encode(name)|
    ensures '%' !in prefix ==> '%' !in id
    ensures forall i :: 0 <= i < |encode(name)| ==>
      id[|prefix| + 1 + i] == if encode(name)[i] == '%' then '_' else encode(name)[i]
  {
    var e := ReplaceChar(encode(name), '%', '_');
    assert (prefix + "_" + e)[..|prefix| + 1] == prefix + "_";
    prefix + "_" + e
  }

  /** Ids of the two lists never collide, whatever the names. */
  lemma IdsOfListsDiffer(a: string, b: string, encode: string -> string)
    ensures MakeId(HANA_PREFIX, a, encode) != MakeId(N200_PREFIX, b, encode)
  {
    var x := MakeId(HANA_PREFIX, a, encode);
    var y := MakeId(N200_PREFIX, b, encode);
    assert x[0] == 'h' && y[0] == 'n' by {
      assert x[..5] == "hana_" && y[..5] == "n200_";
    }
  }

  /** The object pushed for a name whose lookup hit. */
  function Entry(prefix: string, tag: string, name: string, hit: GsiEntry, encode: string -> string): ExtraMountain {
    ExtraMountain(MakeId(prefix, name, encode), name, hit.lat, hit.lon, hit.elev, DEFAULT_LEVEL, [tag])
  }

  /** `tryLookup` against a fixed registry map, as a function value. */
  function Resolver(m: map<string, GsiEntry>): string -> Option<GsiEntry> {
    name => TryLookup(m, name)
  }

  /** Reference for the output of one loop: an entry for each name the
      lookup finds, in order. */
  function Found(lookup: string -> Option<GsiEntry>, names: seq<string>, prefix: string, tag: string, encode: string -> string): (out: seq<ExtraMountain>)
    ensures |out| <= |names|
    ensures forall k :: 0 <= k < |out| ==>
      lookup(out[k].name).Some? && out[k] == Entry(prefix, tag, out[k].name, lookup(out[k].name).value, encode)
  {
    if |names| == 0 then []
    else
      var n := |names| - 1;
      var rest := Found(lookup, names[..n], prefix, tag, encode);
      var hit := lookup(names[n]);
      if hit.Some? then rest + [Entry(prefix, tag, names[n], hit.value, encode)] else rest
  }

  /** Reference for the misses of one loop: the names the lookup does not
      find, in order. */
  function Missed(lookup: string -> Option<GsiEntry>, names: seq<string>): (ng: seq<string>)
    ensures |ng| <= |names|
    ensures forall k :: 0 <= k < |ng| ==> lookup(ng[k]).None?
  {
    if |names| == 0 then []
    else
      var n := |names| - 1;
      var rest := Missed(lookup, names[..n]);
      if lookup(names[n]).None? then rest + [names[n]] else rest
  }

  function NamesOf(out: seq<ExtraMountain>): (ns: seq<string>)
    ensures |ns| == |out|
    ensures forall k :: 0 <= k < |out| ==> ns[k] == out[k].name
  {
    seq(|out|, k requires 0 <= k < |out| => out[k].name)
  }

  /** Every name ends up exactly once, either as an entry or as a miss. */
  lemma {:induction false} Partition(lookup: string -> Option<GsiEntry>, names: seq<string>, prefix: string, tag: string, encode: string -> string)
    ensures |Found(lookup, names, prefix, tag, encode)| + |Missed(lookup, names)| == |names|
    ensures multiset(NamesOf(Found(lookup, names, prefix, tag, encode))) + multiset(Missed(lookup, names)) == multiset(names)
    decreases |names|
  {
    if |names| > 0 {
      var n := |names| - 1;
      Partition(lookup, names[..n], prefix, tag, encode);
      var rest := Found(lookup, names[..n], prefix, tag, encode);
      assert names == names[..n] + [names[n]];
      var hit := lookup(names[n]);
      if hit.Some? {
        var e := Entry(prefix, tag, names[n], hit.value, encode);
        assert NamesOf(rest + [e]) == NamesOf(rest) + [names[n]];
      }
    }
  }

  /** One of the two loops: look every name up, push an entry on a hit and
      the name on a miss, and count the hits. */
  method ResolveList(lookup: string -> Option<GsiEntry>, names: seq<string>, prefix: string, tag: string, encode: string -> string)
    returns (out: seq<ExtraMountain>, ng: seq<string>, ok: nat)
    ensures out == Found(lookup, names, prefix, tag, encode)
    ensures ng == Missed(lookup, names)
    ensures ok == |out| && ok + |ng| == |names|
  {
    out, ng, ok := [], [], 0;
    var i := 0;
    while i < |names|
      invariant 0 <= i <= |names|
      invariant out == Found(lookup, names[..i], prefix, tag, encode)
      invariant ng == Missed(lookup, names[..i])
      invariant ok == |out|
    {
      var hit := lookup(names[i]);
      assert names[..i + 1][..i] == names[..i];
      if hit.None? {
        ng := ng + [names[i]];
      } else {
        ok := ok + 1;
        out := out + [Entry(prefix, tag, names[i], hit.value, encode)];
      }
      i := i + 1;
    }
    assert names[..i] == names;
    Partition(lookup, names, prefix, tag, encode);
  }

  function Min(a: nat, b: nat): nat {
    if a <= b then a else b
  }

  /** The misses of both loops, in the order they were pushed. */
  function AllMissed(lookup: string -> Option<GsiEntry>, setNames: SetNames): (ng: seq<string>)
    ensures forall k :: 0 <= k < |ng| ==> lookup(ng[k]).None?
  {
    var a := Missed(lookup, setNames.hana100);
    var b := Missed(lookup, setNames.nihon200Extra);
    assert forall k :: 0 <= k < |a + b| ==> (a + b)[k] == if k < |a| then a[k] else b[k - |a|];
    a + b
  }

  /** Each id carries one of the two list prefixes and no `%`. */
  predicate WellFormedId(id: string) {
    '%' !in id && (StartsWith(id, HANA_PREFIX + "_") || StartsWith(id, N200_PREFIX + "_"))
  }

  /** The partition part of `buildMountainsExtraViaGSI`, for any lookup:
      the flower-100 loop, then the 200-extra loop, then the statistics. */
  method Assemble(lookup: string -> Option<GsiEntry>, setNames: SetNames, encode: string -> string)
    returns (out: seq<ExtraMountain>, stats: Stats)
    ensures out == Found(lookup, setNames.hana100, HANA_PREFIX, HANA_SET, encode)
                 + Found(lookup, setNames.nihon200Extra, N200_PREFIX, N200_SET, encode)
    ensures stats.hanaOk + stats.n200Ok == |out|
    ensures stats.hanaTotal == |setNames.hana100| && stats.n200Total == |setNames.nihon200Extra|
    ensures stats.hanaOk <= stats.hanaTotal && stats.n200Ok <= stats.n200Total
    ensures |stats.ngExamples| == Min(NG_EXAMPLE_LIMIT, (stats.hanaTotal - stats.hanaOk) + (stats.n200Total - stats.n200Ok))
    ensures |stats.ngExamples| <= |AllMissed(lookup, setNames)|
            && stats.ngExamples == AllMissed(lookup, setNames)[..|stats.ngExamples|]
    ensures forall k :: 0 <= k < |stats.ngExamples| ==> lookup(stats.ngExamples[k]).None?
    ensures forall k :: 0 <= k < |out| ==> WellFormedId(out[k].id)
  {
    var hanaOut, hanaNg, hanaOk := ResolveList(lookup, setNames.hana100, HANA_PREFIX, HANA_SET, encode);
    var n200Out, n200Ng, n200Ok := ResolveList(lookup, setNames.nihon200Extra, N200_PREFIX, N200_SET, encode);
    out := hanaOut + n200Out;
    var ng := hanaNg + n200Ng;
    assert ng == AllMissed(lookup, setNames);
    var shown := ng[..Min(NG_EXAMPLE_LIMIT, |ng|)];
    stats := Stats(hanaOk, |setNames.hana100|, n200Ok, |setNames.nihon200Extra|, shown);
    forall k | 0 <= k < |out| ensures WellFormedId(out[k].id) {
      if k < |hanaOut| {
        assert out[k] == hanaOut[k];
      } else {
        assert out[k] == n200Out[k - |hanaOut|];
      }
    }
    forall k | 0 <= k < |shown| ensures lookup(shown[k]).None? {
      assert shown[k] == ng[k];
    }
  }

  /** The partition part of `buildMountainsExtraViaGSI`, given the registry
      map: every lookup is `tryLookup`. */
  method BuildMountainsExtra(m: map<string, GsiEntry>, setNames: SetNames, encode: string -> string)
    returns (out: seq<ExtraMountain>, stats: Stats)
    ensures out == Found(Resolver(m), setNames.hana100, HANA_PREFIX, HANA_SET, encode)
                 + Found(Resolver(m), setNames.nihon200Extra, N200_PREFIX, N200_SET, encode)
    ensures stats.hanaOk + stats.n200Ok == |out|
    ensures stats.hanaTotal == |setNames.hana100| && stats.n200Total == |setNames.nihon200Extra|
    ensures stats.hanaOk <= stats.hanaTotal && stats.n200Ok <= stats.n200Total
    ensures |stats.ngExamples| == Min(NG_EXAMPLE_LIMIT, (stats.hanaTotal - stats.hanaOk) + (stats.n200Total - stats.n200Ok))
    ensures |stats.ngExamples| <= |AllMissed(Resolver(m), setNames)|
            && stats.ngExamples == AllMissed(Resolver(m), setNames)[..|stats.ngExamples|]
    ensures forall k :: 0 <= k < |stats.ngExamples| ==> TryLookup(m, stats.ngExamples[k]).None?
    ensures forall k :: 0 <= k < |out| ==> WellFormedId(out[k].id)
  {
    out, stats := Assemble(Resolver(m), setNames, encode);
    forall k | 0 <= k < |stats.ngExamples| ensures TryLookup(m, stats.ngExamples[k]).None? {
      assert Resolver(m)(stats.ngExamples[k]).None?;
    }
  }

  /** The registry map built from the text of the registry file. */
  method GsiMapOf(csvText: string) returns (m: map<string, GsiEntry>)
    ensures IsRegistry(Csv.ParseCsv(csvText), m)
  {
    var rows := Csv.ParseCsv(csvText);
    m := BuildGsiMap(rows);
  }

  /** `buildMountainsExtraViaGSI` on the text of the registry file: parse
      it, build the name map `m` (returned too), and partition both lists
      against it. */
  method BuildMountainsExtraViaGsi(csvText: string, setNames: SetNames, encode: string -> string)
    returns (m: map<string, GsiEntry>, out: seq<ExtraMountain>, stats: Stats)
    ensures IsRegistry(Csv.ParseCsv(csvText), m)
    ensures out == Found(Resolver(m), setNames.hana100, HANA_PREFIX, HANA_SET, encode)
                 + Found(Resolver(m), setNames.nihon200Extra, N200_PREFIX, N200_SET, encode)
    ensures stats.hanaOk + stats.n200Ok == |out|
    ensures stats.hanaTotal == |setNames.hana100| && stats.n200Total == |setNames.nihon200Extra|
    ensures stats.hanaOk <= stats.hanaTotal && stats.n200Ok <= stats.n200Total
    ensures |stats.ngExamples| == Min(NG_EXAMPLE_LIMIT, (stats.hanaTotal - stats.hanaOk) + (stats.n200Total - stats.n200Ok))
    ensures |stats.ngExamples| <= |AllMissed(Resolver(m), setNames)|
            && stats.ngExamples == AllMissed(Resolver(m), setNames)[..|stats.ngExamples|]
    ensures forall k :: 0 <= k < |stats.ngExamples| ==> TryLookup(m, stats.ngExamples[k]).None?
    ensures forall k :: 0 <= k < |out| ==> WellFormedId(out[k].id)
  {
    m := GsiMapOf(csvText);
    out, stats := BuildMountainsExtra(m, setNames, encode);
  }
}

=== FILE: name_norm.dfy ===
/** `normName` of mountaimSets.js: a mountain name with all whitespace and
    every full-width bracketed annotation （…）, ＜…＞, ［…］ removed. */
module NameNorm {
  import opened JsText

  /** The ideographic space U+3000. */
  const IDEOGRAPHIC_SPACE: char := '\U{3000}'

  /** No `open` is followed, anywhere later, by `close`. */
  predicate NoPair(open: char, close: char, s: string) {
    forall i, j :: 0 <= i < j < |s| && s[i] == open ==> s[j] != close
  }

  /** A suffix of a bracket-free text is bracket-free. */
  lemma NoPairSuffix(open: char, close: char, s: string, k: nat)
    requires k <= |s| && NoPair(open, close, s)
    ensures NoPair(open, close, s[k..])
  {
    forall i, j | 0 <= i < j < |s[k..]| && s[k..][i] == open ensures s[k..][j] != close {
      assert s[k + i] == open;
    }
  }

  /** Characters drawn from a suffix are drawn from the whole. */
  lemma CharsFromSuffix(r: string, s: string, k: nat)
    requires k <= |s| && CharsFrom(r, s[k..])
    ensures CharsFrom(r, s)
  {
    forall i | 0 <= i < |r| ensures r[i] in s {
      var j :| 0 <= j < |s[k..]| && s[k..][j] == r[i];
      assert s[k + j] == r[i];
    }
  }

  /** A property every character of `s` has, every character of `r` has. */
  lemma CharsFromNoSpace(r: string, s: string)
    requires CharsFrom(r, s) && NoSpace(s)
    ensures NoSpace(r)
  {
    forall i | 0 <= i < |r| ensures !IsSpace(r[i]) {
      var j :| 0 <= j < |s| && s[j] == r[i];
    }
  }

  lemma NoSpaceNoLineBreak(s: string)
    requires NoSpace(s)
    ensures NoLineBreak(s)
  {
  }

  /** `s.replace(/open.*?close/g, "")` on text without line breaks (where `.`
      matches every character): scanning left to right, an `open` that has a
      later `close` is deleted together with everything up to and including
      the first such `close`; an `open` without one is kept. */
  function StripGroup(open: char, close: char, s: string): (r: string)
    requires NoLineBreak(s)
    ensures |r| <= |s|
    ensures CharsFrom(r, s)
    ensures NoPair(open, close, r)
    decreases |s|
  {
    if |s| == 0 then s
    else if s[0] == open && close in s[1..] then
      var k := IndexOf(s[1..], close) + 2;
      var r := StripGroup(open, close, s[k..]);
      CharsFromSuffix(r, s, k);
      r
    else
      var r' := StripGroup(open, close, s[1..]);
      CharsFromSuffix(r', s, 1);
      assert s[0] == open ==> close !in r';
      [s[0]] + r'
  }

  /** On a text without the bracket pair, stripping changes nothing. */
  lemma {:induction false} StripGroupIdentity(open: char, close: char, s: string)
    requires NoLineBreak(s) && NoPair(open, close, s)
    ensures StripGroup(open, close, s) == s
    decreases |s|
  {
    if |s| > 0 {
      NoPairSuffix(open, close, s, 1);
      StripGroupIdentity(open, close, s[1..]);
    }
  }

  /** After an `open` in a pair-free text, no `close` follows. */
  lemma NoPairHead(open: char, close: char, s: string)
    requires |s| > 0 && s[0] == open && NoPair(open, close, s)
    ensures close !in s[1..]
  {
    forall j | 0 <= j < |s[1..]| ensures s[1..][j] != close {
      assert s[1..][j] == s[j + 1];
    }
  }

  /** Putting `x` in front keeps a text pair-free when no `close` follows an
      `open` put there. */
  lemma NoPairCons(open: char, close: char, x: char, r: string)
    requires NoPair(open, close, r) && (x == open ==> close !in r)
    ensures NoPair(open, close, [x] + r)
  {
    var s := [x] + r;
    forall i, j | 0 <= i < j < |s| && s[i] == open ensures s[j] != close {
      assert s[j] == r[j - 1];
      if i > 0 {
        assert r[i - 1] == open;
      }
    }
  }

  /** A character missing from `s` is missing from what is drawn from it. */
  lemma CharsFromAbsent(r: string, s: string, c: char)
    requires CharsFrom(r, s) && c !in s
    ensures c !in r
  {
  }

  /** Stripping one kind of bracket keeps a text free of the other kinds. */
  lemma {:induction false} StripGroupKeepsNoPair(open: char, close: char, o: char, c: char, s: string)
    requires NoLineBreak(s)
    requires NoPair(o, c, s)
    ensures NoPair(o, c, StripGroup(open, close, s))
    decreases |s|
  {
    if |s| > 0 {
      var rest := s[1..];
      if s[0] == open && close in rest {
        var k := IndexOf(rest, close) + 2;
        NoPairSuffix(o, c, s, k);
        StripGroupKeepsNoPair(open, close, o, c, s[k..]);
      } else {
        NoPairSuffix(o, c, s, 1);
        StripGroupKeepsNoPair(open, close, o, c, rest);
        var r' := StripGroup(open, close, rest);
        assert StripGroup(open, close, s) == [s[0]] + r';
        if s[0] == o {
          NoPairHead(o, c, s);
          CharsFromAbsent(r', rest, c);
        }
        NoPairCons(o, c, s[0], r');
      }
    }
  }

  /** Stripping leaves a prefix without `open` in place: the groups are
      removed from what follows it only. */
  lemma {:induction false} StripGroupPrefix(open: char, close: char, a: string, t: string)
    requires NoLineBreak(a) && NoLineBreak(t) && open !in a
    ensures NoLineBreak(a + t)
    ensures StripGroup(open, close, a + t) == a + StripGroup(open, close, t)
    decreases |a|
  {
    var s := a + t;
    forall i | 0 <= i < |s| ensures !IsLineBreak(s[i]) {
      if i < |a| { assert s[i] == a[i]; } else { assert s[i] == t[i - |a|]; }
    }
    if |a| == 0 {
      assert s == t;
    } else {
      assert s[0] == a[0] != open;
      assert s[1..] == a[1..] + t;
      StripGroupPrefix(open, close, a[1..], t);
      assert StripGroup(open, close, s) == [s[0]] + StripGroup(open, close, s[1..]);
      assert a == [a[0]] + a[1..];
    }
  }

  /** A whole group at the front, from `open` to the first `close` after it,
      is removed and the rest is stripped on its own. */
  lemma StripGroupDrop(open: char, close: char, mid: string, t: string)
    requires !IsLineBreak(open) && !IsLineBreak(close)
    requires NoLineBreak(mid) && NoLineBreak(t) && close !in mid
    ensures NoLineBreak([open] + mid + [close] + t)
    ensures StripGroup(open, close, [open] + mid + [close] + t) == StripGroup(open, close, t)
  {
    var s := [open] + mid + [close] + t;
    assert s[1..] == mid + [close] + t;
    assert s[1..][..|mid|] == mid;
    IndexOfUnique(s[1..], close, |mid|);
    assert s[|mid| + 2..] == t;
  }

  predicate BracketFree(s: string) {
    && NoPair('（', '）', s)
    && NoPair('＜', '＞', s)
    && NoPair('［', '］', s)
  }

  /** The three bracket-group removals of `normName`, in its order. */
  function StripGroups(b: string): (e: string)
    requires NoSpace(b)
    ensures NoSpace(e) && BracketFree(e)
    ensures |e| <= |b|
  {
    NoSpaceNoLineBreak(b);
    var c := StripGroup('（', '）', b);
    CharsFromNoSpace(c, b);
    NoSpaceNoLineBreak(c);
    var d := StripGroup('＜', '＞', c);
    StripGroupKeepsNoPair('＜', '＞', '（', '）', c);
    CharsFromNoSpace(d, c);
    NoSpaceNoLineBreak(d);
    var e := StripGroup('［', '］', d);
    StripGroupKeepsNoPair('［', '］', '（', '）', d);
    StripGroupKeepsNoPair('［', '］', '＜', '＞', d);
    CharsFromNoSpace(e, d);
    e
  }

  /** `normName`: the name with whitespace (including U+3000) and the
      full-width bracket groups removed, then trimmed. */
  function NormName(s: string): (r: string)
    ensures NoSpace(r)
    ensures IDEOGRAPHIC_SPACE !in r
    ensures BracketFree(r)
    ensures |r| <= |s|
  {
    Trim(StripGroups(Unspaced(s)))
  }

  /** The first two steps of `normName`: all whitespace, then every U+3000,
      removed. */
  function Unspaced(s: string): (b: string)
    ensures NoSpace(b)
  {
    var a := RemoveSpaces(s);
    var b := RemoveChar(a, IDEOGRAPHIC_SPACE);
    CharsFromNoSpace(b, a);
    b
  }

  /** The ideographic space is whitespace, so a whitespace-free text has none. */
  lemma NoSpaceNoIdeographic(s: string)
    requires NoSpace(s)
    ensures IDEOGRAPHIC_SPACE !in s
  {
    forall i | 0 <= i < |s| ensures s[i] != IDEOGRAPHIC_SPACE {
      assert !IsSpace(s[i]);
    }
  }

  /** The names `normName` leaves unchanged are exactly the whitespace-free
      ones without bracket groups. */
  lemma NormNameFixedPoint(s: string)
    ensures NormName(s) == s <==> NoSpace(s) && BracketFree(s)
  {
    if NoSpace(s) && BracketFree(s) {
      NoSpaceNoIdeographic(s);
      assert Unspaced(s) == s;
      NoSpaceNoLineBreak(s);
      StripGroupIdentity('（', '）', s);
      StripGroupIdentity('＜', '＞', s);
      StripGroupIdentity('［', '］', s);
    }
  }

  /** `normName` is idempotent. */
  lemma NormNameIdempotent(s: string)
    ensures NormName(NormName(s)) == NormName(s)
  {
    NormNameFixedPoint(NormName(s));
  }

  /** A text without opening brackets passes the group removals unchanged
      in front of whatever follows it. */
  lemma StripGroupsPrefix(a: string, x: string)
    requires NoSpace(a) && NoSpace(x)
    requires '（' !in a && '＜' !in a && '［' !in a
    ensures NoSpace(a + x)
    ensures StripGroups(a + x) == a + StripGroups(x)
  {
    NoSpaceNoLineBreak(a);
    NoSpaceNoLineBreak(x);
    StripGroupPrefix('（', '）', a, x);
    var c := StripGroup('（', '）', x);
    CharsFromNoSpace(c, x);
    NoSpaceNoLineBreak(c);
    StripGroupPrefix('＜', '＞', a, c);
    var d := StripGroup('＜', '＞', c);
    CharsFromNoSpace(d, c);
    NoSpaceNoLineBreak(d);
    StripGroupPrefix('［', '］', a, d);
  }

  /** A leading （…） group, up to its first closing bracket, is removed. */
  lemma StripGroupsDrop(mid: string, x: string)
    requires NoSpace(mid) && NoSpace(x) && '）' !in mid
    ensures NoSpace(['（'] + mid + ['）'] + x)
    ensures StripGroups(['（'] + mid + ['）'] + x) == StripGroups(x)
  {
    GroupNoSpace([], mid);
    var s := ['（'] + mid + ['）'] + x;
    assert s == ([] + ['（'] + mid + ['）']) + x;
    NoSpaceAppend([] + ['（'] + mid + ['）'], x);
    NoSpaceNoLineBreak(mid);
    NoSpaceNoLineBreak(x);
    StripGroupDrop('（', '）', mid, x);
  }

  lemma NoSpaceAppend(a: string, b: string)
    requires NoSpace(a) && NoSpace(b)
    ensures NoSpace(a + b)
  {
  }

  /** The whitespace removals of `normName` leave a whitespace-free prefix
      in place. */
  lemma UnspacedPrefix(a: string, t: string)
    requires NoSpace(a)
    ensures Unspaced(a + t) == a + Unspaced(t)
  {
    RemoveSpacesAppend(a, t);
    NoSpaceNoIdeographic(a);
    RemoveCharAppend(a, RemoveSpaces(t), IDEOGRAPHIC_SPACE);
  }

  /** The final trim of `normName` never changes anything. */
  lemma NormNameSteps(s: string)
    ensures NormName(s) == StripGroups(Unspaced(s))
  {
  }

  /** What `normName` keeps: a clean leading text survives, a （…）
      annotation after it disappears, and the rest is normalised on its
      own; so `normName("富士山（静岡）")` is 富士山. */
  lemma NormNameDropsGroup(a: string, mid: string, t: string)
    requires NoSpace(a) && NoSpace(mid) && '）' !in mid
    requires '（' !in a && '＜' !in a && '［' !in a
    ensures NormName(a + ['（'] + mid + ['）'] + t) == a + NormName(t)
  {
    GroupNoSpace(a, mid);
    UnspacedPrefix(a + ['（'] + mid + ['）'], t);
    NormNameSteps(a + ['（'] + mid + ['）'] + t);
    NormNameSteps(t);
    StripGroupsAfter(a, mid, Unspaced(t));
  }

  lemma GroupNoSpace(a: string, mid: string)
    requires NoSpace(a) && NoSpace(mid)
    ensures NoSpace(a + ['（'] + mid + ['）'])
  {
  }

  /** The group after a clean prefix goes, the prefix stays. */
  lemma StripGroupsAfter(a: string, mid: string, x: string)
    requires NoSpace(a) && NoSpace(mid) && NoSpace(x) && '）' !in mid
    requires '（' !in a && '＜' !in a && '［' !in a
    ensures StripGroups(a + ['（'] + mid + ['）'] + x) == a + StripGroups(x)
  {
    var y := ['（'] + mid + ['）'] + x;
    GroupAssoc(a, mid, x);
    StripGroupsDrop(mid, x);
    StripGroupsPrefix(a, y);
  }

  lemma GroupAssoc(a: string, mid: string, x: string)
    ensures a + ['（'] + mid + ['）'] + x == a + (['（'] + mid + ['）'] + x)
  {
  }
}
=== FILE: optional.dfy ===
/** JavaScript's `null`/`undefined`/non-finite values, as the absence of a value. */
module Optional {

  /** `None` stands for a value JavaScript code treats as null: `null`, `undefined`
      or a number that is NaN or infinite. */
  datatype Option<T> = None | Some(value: T) {

    /** The value, or `default` when there is none (JavaScript's `x ?? d`). */
    function GetOr(default: T): T {
      match this
      case Some(v) => v
      case None => default
    }
  }
}

=== FILE: weather.dfy ===
/** The forecast-grading core of weather.js: an hourly Open-Meteo series
    becomes, for 4 days and 6 fixed times of day, a grade "A", "B" or "C"
    (or null when there is no data), plus the sample each grade came from. */
module Weather {
  import opened Optional
  import opened JsText
  import JsNumber

  /** The UI time slots, in display order. */
  const TIME_SLOTS: seq<string> := ["06:00", "08:00", "10:00", "12:00", "14:00", "16:00"]

  /** The forecast horizon: today and the three following days. */
  const FORECAST_DAYS: nat := 4

  /** The difficulty level whose baseline is raised. */
  const ADVANCED: string := "上級"

  /** One entry of a decoded hourly series, as `Number(x)` sees it: a finite
      number, JSON `null`, a missing entry (`undefined`), or a number too
      large to be finite. */
  datatype RawCell = Num(x: real) | Null | Absent | NonFinite

  /** The decoded `hourly` object of the forecast response; a series that is
      not there (or is not an array) is `None`. */
  datatype Hourly = Hourly(
    time: Option<seq<string>>,
    precipitation: Option<seq<RawCell>>,
    windSpeed: Option<seq<RawCell>>,
    windGusts: Option<seq<RawCell>>,
    temperature: Option<seq<RawCell>>)

  /** One picked forecast hour; `None` is a value weather.js holds as null. */
  datatype Sample = Sample(precip: Option<real>, wind: Option<real>, gust: Option<real>, temp: Option<real>)

  /** The grades, best first. */
  datatype Grade = A | B | C

  /** Reference values for wind, gust and temperature. */
  datatype Baseline = Baseline(windBase: int, gustBase: int, tempBase: int)

  /** `toNumber`: `Number(x)` kept only when finite. `Number(null)` is 0, so
      a JSON null becomes 0 and only a missing or non-finite entry becomes
      null. */
  function ToNumber(c: RawCell): (r: Option<real>)
    ensures r.None? <==> c.Absent? || c.NonFinite?
    ensures c.Null? ==> r == Some(0.0)
    ensures c.Num? ==> r == Some(c.x)
  {
    match c
    case Num(x) => Some(x)
    case Null => Some(0.0)
    case Absent => None
    case NonFinite => None
  }

  /** `series?.[i]`: `undefined` when the series is missing or too short. */
  function CellAt(series: Option<seq<RawCell>>, i: nat): RawCell {
    if series.Some? && i < |series.value| then series.value[i] else Absent
  }

  /** `i` is the first index of `want` in `times`. */
  predicate FirstMatch(times: seq<string>, want: string, i: int) {
    0 <= i < |times| && times[i] == want && want !in times[..i]
  }

  /** `pickAtHour`: the sample at the first timestamp exactly equal to
      `wantIso`, every field read at that index; null when there is no time
      array or no exact match (no nearest-hour fallback). */
  function PickAtHour(hourly: Option<Hourly>, wantIso: string): (r: Option<Sample>)
    ensures r.None? <==> hourly.None? || hourly.value.time.None? || wantIso !in hourly.value.time.value
    ensures forall i :: r.Some? && FirstMatch(hourly.value.time.value, wantIso, i) ==>
      && r.value.precip == ToNumber(CellAt(hourly.value.precipitation, i))
      && r.value.wind == ToNumber(CellAt(hourly.value.windSpeed, i))
      && r.value.gust == ToNumber(CellAt(hourly.value.windGusts, i))
      && r.value.temp == ToNumber(CellAt(hourly.value.temperature, i))
  {
    if hourly.None? || hourly.value.time.None? then None
    else
      var h := hourly.value;
      var i := IndexOf(h.time.value, wantIso);
      if i < 0 then None
      else
        assert forall j :: FirstMatch(h.time.value, wantIso, j) ==> j == i by {
          forall j | FirstMatch(h.time.value, wantIso, j) ensures j == i {
            IndexOfUnique(h.time.value, wantIso, j);
          }
        }
        Some(Sample(
          ToNumber(CellAt(h.precipitation, i)),
          ToNumber(CellAt(h.windSpeed, i)),
          ToNumber(CellAt(h.windGusts, i)),
          ToNumber(CellAt(h.temperature, i))))
  }

  /** `hourIso`: the local timestamp `YYYY-MM-DDTHH:MM` the series is keyed by. */
  function HourIso(dateKey: string, slot: string): string {
    dateKey + "T" + slot
  }

  /** Date keys of one length never share a timestamp: distinct cells of the
      grid look up distinct hours. */
  lemma HourIsoInjective(d1: string, t1: string, d2: string, t2: string)
    requires |d1| == |d2|
    requires HourIso(d1, t1) == HourIso(d2, t2)
    ensures d1 == d2 && t1 == t2
  {
    var s := HourIso(d1, t1);
    assert d1 == s[..|d1|] && d2 == HourIso(d2, t2)[..|d2|];
    assert t1 == s[|d1| + 1..] && t2 == HourIso(d2, t2)[|d2| + 1..];
  }

  /** `Number(String(dateKey).slice(5, 7))`: the month of a `YYYY-MM-DD` key. */
  function MonthOf(dateKey: string): Option<real> {
    JsNumber.ParseNumber(Slice(dateKey, 5, 7))
  }

  /** For a key whose characters 5 and 6 are digits, the month is their
      two-digit value. */
  lemma MonthOfDigits(dateKey: string)
    requires |dateKey| >= 7 && JsNumber.IsDigit(dateKey[5]) && JsNumber.IsDigit(dateKey[6])
    ensures MonthOf(dateKey) == Some((10 * JsNumber.DigitValue(dateKey[5]) + JsNumber.DigitValue(dateKey[6])) as real)
  {
    var mm := Slice(dateKey, 5, 7);
    assert mm == [dateKey[5], dateKey[6]];
    assert NoSpace(mm);
    assert Trim(mm) == mm;
    assert JsNumber.AllDigits(mm);
    var first := mm[..1];
    assert first == [dateKey[5]];
    assert JsNumber.DigitsValue(first) == JsNumber.DigitValue(dateKey[5]) by {
      assert first[..0] == [];
    }
    assert JsNumber.DigitsValue(mm) == 10 * JsNumber.DigitsValue(first) + JsNumber.DigitValue(dateKey[6]);
  }

  predicate IsWinter(month: Option<real>) {
    month == Some(12.0) || month == Some(1.0) || month == Some(2.0)
  }

  /** A summit of at least 2500 m; an unknown elevation counts as 0 m. */
  predicate IsHigh(elev: Option<real>) {
    elev.Some? && elev.value >= 2500.0
  }

  /** `baselineBySeason`: reference wind, gust and temperature chosen by
      season (winter is December to February), by summit height, and raised
      for the advanced level. */
  function BaselineBySeason(level: string, elev: Option<real>, month: Option<real>): (b: Baseline)
    ensures b.tempBase in {-12, -6, 2, 8}
    ensures b.tempBase < 0 <==> IsWinter(month)
    ensures b.tempBase == -12 || b.tempBase == 2 <==> IsHigh(elev)
    ensures b.windBase == (if IsHigh(elev) then 12 else 9) + (if level == ADVANCED then 1 else 0)
    ensures b.gustBase == (if IsHigh(elev) then 18 else 14) + (if level == ADVANCED then 2 else 0)
  {
    var winter := month == Some(12.0) || month == Some(1.0) || month == Some(2.0);
    var high := elev.GetOr(0.0) >= 2500.0;
    var base := Baseline(
      if high then 12 else 9,
      if high then 18 else 14,
      if winter then (if high then -12 else -6) else (if high then 2 else 8));
    if level == ADVANCED then base.(windBase := base.windBase + 1, gustBase := base.gustBase + 2)
    else base
  }

  /** The advanced level adds 1 to the wind and 2 to the gust reference and
      leaves the temperature reference alone. */
  lemma AdvancedBaseline(other: string, elev: Option<real>, month: Option<real>)
    requires other != ADVANCED
    ensures var adv := BaselineBySeason(ADVANCED, elev, month);
            var std := BaselineBySeason(other, elev, month);
            adv.windBase == std.windBase + 1 && adv.gustBase == std.gustBase + 2 && adv.tempBase == std.tempBase
  {
  }

  /** Wind at least 4 m/s over its reference. */
  predicate WindStrong(wind: Option<real>, b: Baseline) {
    wind.Some? && wind.value >= (b.windBase + 4) as real
  }

  /** Gusts at least 6 m/s over their reference. */
  predicate GustStrong(gust: Option<real>, b: Baseline) {
    gust.Some? && gust.value >= (b.gustBase + 6) as real
  }

  /** Temperature at least 8 degrees under its reference. */
  predicate TooCold(temp: Option<real>, b: Baseline) {
    temp.Some? && temp.value <= (b.tempBase - 8) as real
  }

  predicate AtLeastTwo(x: bool, y: bool, z: bool) {
    (x && y) || (x && z) || (y && z)
  }

  /** The penalty points of the secondary factors; a null factor adds none. */
  function Penalty(wind: Option<real>, gust: Option<real>, temp: Option<real>, b: Baseline): (p: nat)
    ensures p <= 3
    ensures p >= 2 <==> AtLeastTwo(WindStrong(wind, b), GustStrong(gust, b), TooCold(temp, b))
    ensures wind.None? && gust.None? && temp.None? ==> p == 0
  {
    var p0 := 0;
    var p1 := if wind != None && wind.value >= (b.windBase + 4) as real then p0 + 1 else p0;
    var p2 := if gust != None && gust.value >= (b.gustBase + 6) as real then p1 + 1 else p1;
    if temp != None && temp.value <= (b.tempBase - 8) as real then p2 + 1 else p2
  }

  /** `scoreFromRule`: precipitation decides first (null gives no grade,
      at least 1.0 mm gives "C", at least 0.3 mm gives "B"); under 0.3 mm the
      grade is "B" when at least two of strong wind, strong gusts and cold
      hold against the baseline of the level, summit and month, else "A". */
  function ScoreFromRule(precip: Option<real>, wind: Option<real>, gust: Option<real>, temp: Option<real>,
                         level: string, elev: Option<real>, dateKey: string): (r: Option<Grade>)
    ensures r.None? <==> precip.None?
    ensures r == Some(C) <==> precip.Some? && precip.value >= 1.0
    ensures precip.Some? && 0.3 <= precip.value < 1.0 ==> r == Some(B)
    ensures precip.Some? && precip.value < 0.3 ==>
      var b := BaselineBySeason(level, elev, MonthOf(dateKey));
      r == if AtLeastTwo(WindStrong(wind, b), GustStrong(gust, b), TooCold(temp, b)) then Some(B) else Some(A)
  {
    if precip == None then None
    else if precip.value >= 1.0 then Some(C)
    else if precip.value >= 0.3 then Some(B)
    else
      var b := BaselineBySeason(level, elev, MonthOf(dateKey));
      if Penalty(wind, gust, temp, b) >= 2 then Some(B) else Some(A)
  }

  /** The grade of one grid cell: null when the hour is missing, otherwise
      the score of the picked sample. */
  function SlotGrade(hourly: Option<Hourly>, level: string, elev: Option<real>, dateKey: string, slot: string): Option<Grade> {
    match PickAtHour(hourly, HourIso(dateKey, slot))
    case None => None
    case Some(v) => ScoreFromRule(v.precip, v.wind, v.gust, v.temp, level, elev, dateKey)
  }

  /** The result of `generateWeatherScore`: `weather[dateKey][slot]` and
      `weather.__detail[dateKey][slot]`. */
  datatype Forecast = Forecast(grades: map<string, map<string, Option<Grade>>>, detail: map<string, map<string, Sample>>)

  /** A grade row for `dateKey` covers exactly the slots, each with its cell's grade. */
  ghost predicate GradeRow(hourly: Option<Hourly>, level: string, elev: Option<real>, dateKey: string, row: map<string, Option<Grade>>) {
    && (forall t :: t in row <==> t in TIME_SLOTS)
    && (forall t :: t in row ==> row[t] == SlotGrade(hourly, level, elev, dateKey, t))
  }

  /** A detail row for `dateKey` holds exactly the slots whose hour was found,
      each with the picked sample. */
  ghost predicate DetailRow(hourly: Option<Hourly>, dateKey: string, row: map<string, Sample>) {
    && (forall t :: t in row <==> t in TIME_SLOTS && PickAtHour(hourly, HourIso(dateKey, t)).Some?)
    && (forall t :: t in row ==> Some(row[t]) == PickAtHour(hourly, HourIso(dateKey, t)))
  }

  /** The rows of one date: the inner loop over the time slots of
      `generateWeatherScore`. */
  method DayRows(hourly: Option<Hourly>, level: string, elev: Option<real>, dateKey: string)
    returns (row: map<string, Option<Grade>>, drow: map<string, Sample>)
    ensures GradeRow(hourly, level, elev, dateKey, row)
    ensures DetailRow(hourly, dateKey, drow)
  {
    row := map[];
    drow := map[];
    var j := 0;
    while j < |TIME_SLOTS|
      invariant 0 <= j <= |TIME_SLOTS|
      invariant forall t :: t in row <==> t in TIME_SLOTS[..j]
      invariant forall t :: t in row ==> row[t] == SlotGrade(hourly, level, elev, dateKey, t)
      invariant forall t :: t in drow <==> t in TIME_SLOTS[..j] && PickAtHour(hourly, HourIso(dateKey, t)).Some?
      invariant forall t :: t in drow ==> Some(drow[t]) == PickAtHour(hourly, HourIso(dateKey, t))
    {
      var t := TIME_SLOTS[j];
      var v := PickAtHour(hourly, HourIso(dateKey, t));
      row := row[t := SlotGrade(hourly, level, elev, dateKey, t)];
      if v.Some? {
        drow := drow[t := v.value];
      }
      assert TIME_SLOTS[..j + 1] == TIME_SLOTS[..j] + [t];
      j := j + 1;
    }
    assert TIME_SLOTS[..j] == TIME_SLOTS;
  }

  /** The grid-building loop of `generateWeatherScore`, with the four date
      keys and the decoded hourly series passed in. */
  method GenerateWeatherScore(hourly: Option<Hourly>, level: string, elev: Option<real>, dateKeys: seq<string>)
    returns (f: Forecast)
    requires |dateKeys| == FORECAST_DAYS
    ensures forall d :: d in f.grades <==> d in dateKeys
    ensures f.detail.Keys == f.grades.Keys
    ensures forall d :: d in f.grades ==> GradeRow(hourly, level, elev, d, f.grades[d])
    ensures forall d :: d in f.detail ==> DetailRow(hourly, d, f.detail[d])
  {
    var grades: map<string, map<string, Option<Grade>>> := map[];
    var detail: map<string, map<string, Sample>> := map[];
    var d := 0;
    while d < |dateKeys|
      invariant 0 <= d <= |dateKeys|
      invariant forall k :: k in grades <==> k in dateKeys[..d]
      invariant detail.Keys == grades.Keys
      invariant forall k :: k in grades ==> GradeRow(hourly, level, elev, k, grades[k])
      invariant forall k :: k in detail ==> DetailRow(hourly, k, detail[k])
    {
      var dateKey := dateKeys[d];
      var row, drow := DayRows(hourly, level, elev, dateKey);
      grades := grades[dateKey := row];
      detail := detail[dateKey := drow];
      assert dateKeys[..d + 1] == dateKeys[..d] + [dateKey];
      d := d + 1;
    }
    assert dateKeys[..d] == dateKeys;
    f := Forecast(grades, detail);
  }
}

=== FILE: weather_props.dfy ===
/** How the hourly grade of weather.js responds to its inputs: what a
    null factor contributes, and monotonicity in every input. */
module WeatherProps {
  import opened Optional
  import opened Weather

  /** The grade order A < B < C. */
  function Rank(g: Grade): nat {
    match g
    case A => 0
    case B => 1
    case C => 2
  }

  /** `g1` is no worse than `g2`; both absent counts as equal. */
  predicate NoWorse(g1: Option<Grade>, g2: Option<Grade>) {
    (g1.None? && g2.None?) || (g1.Some? && g2.Some? && Rank(g1.value) <= Rank(g2.value))
  }

  /** `x2` is at least as strong a reading as `x1`; a null reading is the
      weakest, since it adds no penalty. */
  predicate NotWeaker(x1: Option<real>, x2: Option<real>) {
    x1.None? || (x2.Some? && x1.value <= x2.value)
  }

  /** `t2` is at least as cold as `t1`; a null temperature is the mildest. */
  predicate NotWarmer(t1: Option<real>, t2: Option<real>) {
    t1.None? || (t2.Some? && t2.value <= t1.value)
  }

  /** With wind, gust and temperature all null and precipitation under
      0.3 mm, the grade is "A". */
  lemma AllNullIsA(precip: real, level: string, elev: Option<real>, dateKey: string)
    requires precip < 0.3
    ensures ScoreFromRule(Some(precip), None, None, None, level, elev, dateKey) == Some(A)
  {
  }

  /** More precipitation never improves the grade. */
  lemma PrecipMonotone(p1: real, p2: real, wind: Option<real>, gust: Option<real>, temp: Option<real>,
                       level: string, elev: Option<real>, dateKey: string)
    requires p1 <= p2
    ensures NoWorse(ScoreFromRule(Some(p1), wind, gust, temp, level, elev, dateKey),
                    ScoreFromRule(Some(p2), wind, gust, temp, level, elev, dateKey))
  {
  }

  /** Stronger wind never improves the grade. */
  lemma WindMonotone(precip: Option<real>, w1: Option<real>, w2: Option<real>, gust: Option<real>, temp: Option<real>,
                     level: string, elev: Option<real>, dateKey: string)
    requires NotWeaker(w1, w2)
    ensures NoWorse(ScoreFromRule(precip, w1, gust, temp, level, elev, dateKey),
                    ScoreFromRule(precip, w2, gust, temp, level, elev, dateKey))
  {
  }

  /** Stronger gusts never improve the grade. */
  lemma GustMonotone(precip: Option<real>, wind: Option<real>, g1: Option<real>, g2: Option<real>, temp: Option<real>,
                     level: string, elev: Option<real>, dateKey: string)
    requires NotWeaker(g1, g2)
    ensures NoWorse(ScoreFromRule(precip, wind, g1, temp, level, elev, dateKey),
                    ScoreFromRule(precip, wind, g2, temp, level, elev, dateKey))
  {
  }

  /** A lower temperature never improves the grade. */
  lemma TempMonotone(precip: Option<real>, wind: Option<real>, gust: Option<real>, t1: Option<real>, t2: Option<real>,
                     level: string, elev: Option<real>, dateKey: string)
    requires NotWarmer(t1, t2)
    ensures NoWorse(ScoreFromRule(precip, wind, gust, t1, level, elev, dateKey),
                    ScoreFromRule(precip, wind, gust, t2, level, elev, dateKey))
  {
  }

  /** The advanced level, whose wind and gust references are higher, never
      grades an hour worse than any other level. */
  lemma AdvancedNeverWorse(precip: Option<real>, wind: Option<real>, gust: Option<real>, temp: Option<real>,
                           other: string, elev: Option<real>, dateKey: string)
    ensures NoWorse(ScoreFromRule(precip, wind, gust, temp, ADVANCED, elev, dateKey),
                    ScoreFromRule(precip, wind, gust, temp, other, elev, dateKey))
  {
    if other != ADVANCED {
      AdvancedBaseline(other, elev, MonthOf(dateKey));
    }
  }
}
